=== FILE: README.md ===
# CoastalGuard alert dashboard: a Dafny model

This project models `CoastalAlertSystem` in `app.js`. That class is the browser dashboard of a
coastal threat-monitoring service. It holds mock data in memory: coastal regions, sensor
stations, weather records and alerts. On a fixed period it drifts the simulated readings
and clamps them to realistic ranges. It can add an alert from a form, filter the alerts by
severity, look up regions and alerts by id, and count what the dashboard and the analytics
view show. It also keeps the user's preferences in `localStorage` under
`coastalAlertPreferences` and attaches a stored API key to outgoing requests.

Modules:

- `JsValues`: JavaScript numbers with `NaN`, JSON values, and decimal text. It also holds
  `parseInt` and the `Number` conversion as the dashboard uses them, plus `split`/`join`.
- `Seqs`: `Array.prototype.filter` and `find`.
- `Domain`: the records, the clamping ranges and the seed data.
- `Simulation`: one refresh tick, as pure functions of the random draws it consumes.
- `AlertList`: building a new alert, the severity filter, the id lookups, and the
  dashboard and analytics counts.
- `Preferences`: the stored preference record, the shallow merge over the defaults, the
  interval in milliseconds, the theme toggle, the settings form and the `Authorization`
  header rule. It also holds the `LocalStorage` class.
- `TimeFormat`: the "time ago" buckets of `formatTime`.
- `Timers`: the browser's `setInterval`/`clearInterval` bookkeeping, as a class.
- `Dashboard`: the `CoastalAlertSystem` class. Its fields are the state the dashboard updates
  in place. Its methods are the refresh tick, alert creation, the settings operations and
  the start/restart of the refresh timer.

`Math.random()` values become parameters drawn from `[0, 1)`. `Date.now()` becomes a
parameter in milliseconds. `JSON.parse` and `JSON.stringify` are an abstract codec.
Sensor and weather readings are `real`s.

Behaviour of app.js to keep in mind:

- `createAlert` does not reject empty field values (app.js:743-746). It only checks that
  the form elements exist.
- Alert ids are `ALERT_` plus the current milliseconds (app.js:749). They are distinct
  only across distinct milliseconds (`NewAlertIdsDiffer`).
- The stored preferences are merged over the defaults one level deep (app.js:1075). A
  stored `notifications` object replaces the default one whole
  (`ShallowMergeReplacesNotifications`).
- There is no operation that stops the refresh timer without restarting it.

## Model

`Preferences.Serialized` (app.js:1083) has no contract of its own: it is `JSON.stringify` of the record, and `SaveThenLoad` states what it guarantees. `JsValues.ParseInt` carries its facts in `ParseIntResult` and `ParseIntOfDecimal`. This keeps the text-trimming unfolding out of every method that parses an interval.

| member | source | states |
|---|---|---|
| Dashboard.CoastalAlertSystem.SimulateDataUpdates | app.js:969-1006 | Each sensor and weather record becomes its stepped value at the same index and nothing else changes. Afterwards every reading is in its range. The region step happens exactly when the 5% gate fires; with no regions the tick reports failure, which stands for the exception app.js throws. A run that starts with known threat levels keeps them known. |
| Simulation.StepSensor | app.js:972-982 | The stepped tide, wave, wind and water readings lie in their ranges 0.5-4.0, 0.2-3.0, 5-50 and 20-35. Identity, location, salinity and pH are unchanged. The timestamp is the current time. |
| Simulation.StepSensorMovesLittle | app.js:973-981 | From an in-range reading, one tick moves tide and wave by at most 0.025, wind by at most 0.5 and water temperature by at most 0.05. |
| Simulation.StepWeather | app.js:985-996 | Temperature, humidity, pressure and wind end in 20-40, 40-95, 995-1025 and 5-50. The other fields are unchanged. |
| Simulation.StepWeatherMovesLittle | app.js:986-996 | From an in-range record, one tick moves temperature by at most 0.25 and humidity, pressure and wind by at most 0.5. |
| Simulation.Clamp | app.js:978-981 | `Math.max(lo, Math.min(hi, v))` lies in `[lo, hi]`. It is `v` when `v` is in range and the nearer bound otherwise. |
| Simulation.Drift | app.js:972-975 | For a draw in [0, 1), `v + (r - 0.5) * m` moves `v` by at most `m/2`. |
| Simulation.DriftThenClampBound | app.js:973-981 | Drifting by `(r - 0.5) * m` and clamping moves an in-range value by at most `m/2`. |
| Simulation.PickIndex | app.js:1001-1003 | `Math.floor(r * n)` is a valid index whenever `n > 0`. |
| Simulation.StepRegions | app.js:999-1005 | It fails exactly when the gate draw is below 0.05 and there are no regions. Without the gate nothing changes. With the gate, exactly one region gets a level from `low/medium/high` and the current time, and the others stay as they were. |
| Simulation.StepRegionsKeepsLevelsKnown | app.js:1002-1003 | Threat levels stay within `low/medium/high`. |
| Simulation.StepRegionsKeepsIdentity | app.js:999-1005 | Region ids, names and populations never change. |
| Dashboard.CoastalAlertSystem.CreateAlert | app.js:734-765 | With every form element present, the built alert is put at the front of the list. Otherwise the list is unchanged and the result says so. |
| AlertList.BuildAlert | app.js:748-758 | The id is `ALERT_` plus the current milliseconds and the status is `Active`. Type, region, severity and impact are copied from the form. The estimate is 1000..50999. The actions are the text split at newlines: one more part than newlines, none containing a newline, and joining them gives the text back. |
| AlertList.NewAlertId | app.js:749 | The id starts with `ALERT_`. The rest is all digits whose decimal value is the creation time in milliseconds, with no leading zero unless the time is 0. |
| AlertList.NewAlertIdsDiffer | app.js:749 | Ids made at different milliseconds differ. |
| AlertList.EstimatedAffected | app.js:756 | `Math.floor(r * 50000) + 1000` lies in 1000..50999. |
| JsValues.JoinSplit | app.js:754 | Joining the parts of `split('\n')` restores the text. |
| JsValues.SplitJoin | app.js:754 | Splitting the join of newline-free parts gives the parts back. |
| JsValues.Split | app.js:754 | There are exactly one more part than separators, and no part contains the separator. |
| AlertList.FilterAlerts | app.js:768-791 | With no severity chosen, the result is all alerts. Otherwise it holds exactly the alerts of that severity, each as often as in the list, and no others. |
| AlertList.FilterAlertsKeepsOrder | app.js:774-777 | The filtered list keeps the original order, so it is a subsequence. |
| Seqs.Filter | app.js:776 | Every kept element satisfies the predicate. The kept multiset is the matching part of the input's. |
| Seqs.FilterIsSubsequence | app.js:776 | `filter` keeps the relative order of the kept elements. |
| Seqs.FilterConcat | app.js:359-362 | Filtering a concatenation is the concatenation of the filtered parts. |
| Seqs.FilterConcatSnoc | app.js:359-362 | The inductive step of `FilterConcat`: appending an element to the second part keeps filtering distributive. |
| Seqs.FilterSnoc | app.js:359-362 | Appending an element to the input appends it to the output exactly when it matches. |
| Seqs.FilterCount | app.js:359-362 | The filtered length is the number of matching positions. |
| Seqs.FindIndex | app.js:675 | The index found is the first whose element matches. None means no element matches. |
| Seqs.Find | app.js:794 | `find` returns the first matching element, and `undefined` (None) exactly when none matches. |
| AlertList.FindRegion | app.js:674-675 | The region returned has the requested id and is the first such region. None means no region has it. |
| AlertList.FindAlert | app.js:793-794 | The alert returned has the requested id and is the first such alert. None means no alert has it. |
| AlertList.FindCreatedAlert | app.js:793-794 | A just-created alert is found by its id, even if an older alert shares it. |
| AlertList.DashboardCounts | app.js:357-362 | The active count is the number of alerts with status `Active`. The high, medium and low counts are the numbers of active alerts with severity `HIGH`, `MEDIUM` and `LOW`. high+medium+low is at most active, which is at most the list length. |
| AlertList.SeverityCountsBounded | app.js:360-362 | The three severity counts over any list add up to at most its length. |
| AlertList.CreatedAlertIsCounted | app.js:359-362 | Creating an active alert raises the active count by one and the count of its own severity by one. The other two severity counts stay the same. |
| AlertList.PopulationAtRisk | app.js:389-391 | The population of regions not at `low` plus that of the `low` regions is the total. So the figure is at most the total. |
| AlertList.PopulationSplits | app.js:389-391 | The sums over the two halves of a filter add up to the sum over all regions. |
| AlertList.AnalyticsMetrics | app.js:537-543 | The total is the list length. The active count is the dashboard's active count, at most the total. The population monitored is the sum over every region, so it is at least the population at risk. |
| AlertList.TotalPopulation | app.js:543 | The sum of `population_at_risk` is at least each region's own figure, and 0 for no regions. |
| AlertList.ActiveAlerts | app.js:359 | Every kept alert is active. Each active alert is kept as often as it is listed. The length is the number of active positions. |
| Preferences.GetUserPreferences | app.js:1062-1079 | It returns the defaults when storage throws, holds nothing or holds an empty string, or when the text does not parse. Otherwise every default key is present. Each stored top-level property overrides its default, and the other defaults stay. |
| Preferences.ShallowMergeReplacesNotifications | app.js:1075 | A stored partial `notifications` object replaces the default one whole, and the other defaults stay. |
| Preferences.IndexKeyedAt | app.js:1075 | Spreading a parsed array or string gives the property named by the decimal index `i` the element at `i`. |
| Preferences.LocalStorage.GetItem | app.js:1074 | The read throws exactly when storage is disabled. A string comes back exactly when the key is stored, and it is the stored text. |
| Preferences.LocalStorage.SetItem | app.js:1083 | When storage is enabled, the key maps to the new text and nothing else changes. Otherwise nothing changes and the call reports failure. |
| Dashboard.CoastalAlertSystem.SaveUserPreferences | app.js:1081-1087 | The record's JSON text is written under `coastalAlertPreferences`. When storage refuses, nothing changes. |
| Preferences.SaveThenLoad | app.js:1062-1087 | Reading back a saved record gives every saved field. It gives the record itself when the record has all the default keys. |
| Dashboard.CoastalAlertSystem.LoadUserPreferences | app.js:1046-1060 | The refresh period becomes the stored `refreshInterval` times 1000. |
| Preferences.IntervalMs | app.js:1059 | A stored number of seconds gives a thousand times as many milliseconds, and a stored `null` gives 0. A missing value or an object gives NaN. |
| Dashboard.CoastalAlertSystem.StoredPreferences | app.js:1073-1078 | Every default key is present. When storage is refused or holds nothing under the key, the result is the defaults alone. Otherwise it is the stored text parsed and merged over the defaults. |
| Preferences.SpreadOf | app.js:1075 | Spreading an object copies its fields. `null`, booleans and numbers add nothing. An array adds each element under its decimal index, and a string adds each character as a one-character string under its index. |
| Preferences.DefaultInterval | app.js:1059-1067 | With the default record the period is 10000 ms. |
| Preferences.SavedIntervalReloads | app.js:883-890 | When the form's interval parses as a number, the period `saveSettings` sets at once equals the one the next load reads back. When it does not, the period set at once is NaN, while the saved `null` reads back as 0 ms. |
| JsValues.ParseIntOfDecimal | app.js:947 | `parseInt` reads back the decimal digits of any natural number, whatever non-digit text follows them. |
| JsValues.ParseIntResult | app.js:947 | `parseInt` is NaN exactly when no digit follows the leading white space and sign. Only a leading minus makes the result negative. |
| JsValues.DecimalRoundTrip | app.js:749 | The decimal digits of `n` denote `n`. |
| JsValues.StringToNumber | app.js:1059 | Blank text is 0. A non-empty all-digit string is its decimal value. |
| JsValues.StringToNumberShape | app.js:1059 | Non-blank trimmed text gives a number exactly when it is an optionally signed run of digits, and then the number is the signed value of the digits. Everything else is NaN. A negative result needs a leading minus. |
| JsValues.NegativeDigits | app.js:1059 | A minus sign followed by digits is the negated value of the digits. |
| JsValues.ToNumber | app.js:1059 | A number is itself. `null`, `false` and the empty string are 0, `true` is 1, and an object is NaN. |
| Dashboard.CoastalAlertSystem.HandleRefreshIntervalChange | app.js:946-949 | The period becomes `parseInt(value) * 1000`, and the timer is restarted. Exactly one timer runs afterwards, at the new period. |
| Dashboard.CoastalAlertSystem.StartDataUpdates | app.js:951-960 | A fresh timer is started at the current period under a handle not in use. Timers already running keep running. |
| Dashboard.CoastalAlertSystem.RestartDataUpdates | app.js:962-967 | The current timer is cleared and a new one started, so exactly one timer runs afterwards, at the current period. |
| Timers.IntervalTimers.SetInterval | app.js:952 | The new handle is positive and not in use. Exactly that timer is added. |
| Timers.IntervalTimers.ClearInterval | app.js:964 | Exactly that timer is removed, if it runs. |
| Dashboard.CoastalAlertSystem.constructor | app.js:3-167 | The dashboard starts with the seed data and the stored period. Exactly one timer runs at that period, and all readings are in range. |
| Domain.SeedRegions | app.js:11-42 | The three seed regions have known threat levels. |
| Domain.SeedSensors | app.js:43-77 | The three seed stations read within the clamping ranges. |
| Domain.SeedWeather | app.js:78-112 | The three seed weather records lie within the clamping ranges. |
| Domain.SeedAlerts | app.js:113-147 | The three seed alerts have distinct ids. |
| Dashboard.CoastalAlertSystem.SaveSettings | app.js:864-894 | The form's record is saved. The period becomes its seconds times 1000, and exactly one timer runs afterwards, at that period. |
| Preferences.SettingsRecord | app.js:875-887 | The saved record has exactly the default keys. An empty form gives the defaults. A present key or theme is saved verbatim. |
| Preferences.NotificationSettings | app.js:876-880 | The notifications object has exactly the keys `email`, `sms` and `push`. |
| Preferences.SettingsRecordMinSeverity | app.js:881 | `minSeverity` holds the element's value when the element is present, and `MEDIUM` when it is missing. |
| Preferences.SettingsRecordTheme | app.js:882 | `theme` holds the element's value when the element is present, and `auto` when it is missing. |
| Preferences.SettingsRecordApiEndpoint | app.js:884 | `apiEndpoint` holds the element's value when the element is present, and the default endpoint when it is missing. |
| Preferences.SettingsRecordBackupFrequency | app.js:885 | `backupFrequency` holds the element's value when the element is present, and `daily` when it is missing. |
| Preferences.SettingsRecordApiKey | app.js:886 | `apiKey` holds the element's value when the element is present, and the empty string when it is missing. |
| Preferences.SettingsRecordNotificationKeys | app.js:876-880 | `notifications` is an object with exactly the keys `email`, `sms` and `push`. |
| Preferences.SettingsRecordEmail | app.js:877 | `email` is the checkbox state, or `true` when the box is missing. |
| Preferences.SettingsRecordSms | app.js:878 | `sms` is the checkbox state, or `true` when the box is missing. |
| Preferences.SettingsRecordPush | app.js:879 | `push` is the checkbox state, or `true` when the box is missing. |
| Preferences.SettingsRecordNotificationsDefault | app.js:876-880 | With no checkbox on the page, `notifications` equals the default object. |
| Preferences.SettingsRecordInterval | app.js:883 | The interval holds the parsed seconds. It holds `null` when the text does not parse, and the default 10 when the element is missing. |
| Preferences.FormSeconds | app.js:883 | The seconds are the parsed element, or the default interval when the element is missing. |
| Dashboard.CoastalAlertSystem.ResetSettings | app.js:896-914 | The defaults are saved, the period becomes 10000 ms, and exactly one timer runs afterwards, at that period. |
| Dashboard.CoastalAlertSystem.ToggleTheme | app.js:915-930 | The new theme is `light` exactly when the page was dark, and otherwise `dark`. The stored record gets that theme and keeps its other fields. |
| Preferences.ToggledTheme | app.js:916-918 | `light` exactly when the current theme is `dark`, and otherwise `dark`. |
| Preferences.WithTheme | app.js:927-929 | Only `theme` changes in the saved record. |
| Preferences.RequestHeaders | app.js:1147-1153 | When the stored key is truthy, `Authorization` is set to it. Otherwise the headers are the given ones. The other given headers are kept unchanged. |
| Dashboard.CoastalAlertSystem.FetchHeaders | app.js:1147-1153 | When the stored key is truthy, `Authorization` is set to it. Otherwise the given headers go out unchanged, as they do when storage is refused or empty. Every given header other than `Authorization` is always kept. |
| Preferences.DefaultsSendNoKey | app.js:1148-1151 | The default empty key adds no header. |
| Preferences.SavedKeyIsSent | app.js:1150-1151 | A non-empty key saved from the settings form is the `Authorization` header sent later. |
| TimeFormat.FormatTime | app.js:1126-1141 | Under one minute the result is "just now". Under an hour it is whole minutes (1-59), under a day whole hours (1-23), and otherwise older than a day. Each boundary holds in both directions. |
| TimeFormat.Label | app.js:1131-1140 | Under a minute the text is "Just now". A minutes bucket is the decimal count followed directly by "m ago", and an hours bucket the count followed by "h ago". `parseInt` of either text gives back the count. Older than a day there is no modelled text. |
| TimeFormat.FormatTimeAges | app.js:1126-1141 | As time passes, the label of a fixed instant only ages. |

## Left out

- Rendering: the DOM, notifications, charts (Chart.js), modals and keyboard shortcuts are presentation only. The tick callback's redraws (app.js:953-958) are not modelled.
- `refreshData` (app.js:1008-1013) is one `Dashboard.CoastalAlertSystem.SimulateDataUpdates` tick, which is modelled, followed by a redraw and a notification, which are not.
- `toLocaleString`, `toLocaleDateString` and `toISOString` depend on the locale and calendar. Timestamps are kept as milliseconds, and `TimeFormat.Label` gives None for older than a day.
- Readings are exact `real`s. IEEE-754 rounding of the drift arithmetic is not modelled.
- JSON numbers are integers. A stored fractional `refreshInterval` is not modelled.
- JsValues.ToNumber: `undefined` is not a value here; a missing key is handled where it is read (`IntervalMs`).
- JsValues.StringToNumber: only non-empty digit strings, an optional sign and surrounding whitespace give a number. Decimals, exponents, `Infinity` and hex literals give NaN here instead of their value.
- JsValues.ToNumber: an array becomes NaN. JavaScript converts an array through its text, so `[]` and `[null]` become 0 and a one-element array becomes the number of its element's text (`[true]` is NaN).
- JsValues.ParseInt: hex prefixes (`0x`) are not modelled. Its white space, like that of `JsValues.StringToNumber`, is JavaScript's full set (`JsValues.IsSpace`): tab, vertical tab, form feed, byte-order mark, the four line terminators and every Unicode space separator.
- `JSON.parse` and `JSON.stringify` are abstract. Where a round trip is needed, the lemmas take it as a precondition.
- `fetch` itself (app.js:1153) is I/O. Only the headers it would send are modelled (`Dashboard.CoastalAlertSystem.FetchHeaders`).
- Timer callbacks do not fire in the model, and no real time passes. `Timers.IntervalTimers` records only which timers run and at what period.
- Applying the theme to the page (`document.documentElement`) is not modelled. `ToggleTheme` takes the current theme as a parameter.
- `console.warn` on storage failures is not modelled. A storage quota failure on write is folded into `LocalStorage.enabled`.
- Alert ids are not unique when two alerts are created in the same millisecond. The model states only that distinct milliseconds give distinct ids.
- `threatTypes` and the rest of the seed data not read by the modelled operations are not modelled.

=== FILE: alertlist.dfy ===
/**
 * The alert list and the queries the dashboard runs over `mockData`: building a new
 * alert from the form, filtering by severity, lookups by id, and the counts shown on
 * the dashboard and analytics tabs.
 */
module AlertList {
  import opened Wrappers
  import opened Seqs
  import opened JsValues
  import opened Domain
  import Simulation

  // ---------------------------------------------------------------- creating an alert

  const IdPrefix := "ALERT_"

  /** `ALERT_${Date.now()}`: the id carries its creation time in decimal after the prefix. */
  function NewAlertId(now: nat): (id: string)
    ensures |id| > |IdPrefix| && id[..|IdPrefix|] == IdPrefix
    ensures AllDigits(id[|IdPrefix|..]) && DigitsValue(id[|IdPrefix|..]) == now
    ensures id[|IdPrefix|] != '0' || id == IdPrefix + "0"
  {
    var id := IdPrefix + NatToDecimal(now);
    assert id[|IdPrefix|..] == NatToDecimal(now);
    DecimalRoundTrip(now);
    id
  }

  /** Alerts created at different milliseconds get different ids. */
  lemma NewAlertIdsDiffer(a: nat, b: nat)
    requires a != b
    ensures NewAlertId(a) != NewAlertId(b)
  {
  }

  /** `Math.floor(Math.random() * 50000) + 1000`. */
  function EstimatedAffected(draw: real): (n: int)
    requires Simulation.IsDraw(draw)
    ensures 1000 <= n <= 50999
  {
    (draw * 50000.0).Floor + 1000
  }

  /** The values of the five form fields; None when the form element is missing. */
  datatype AlertForm = AlertForm(
    alertType: Option<string>,
    region: Option<string>,
    severity: Option<string>,
    impact: Option<string>,
    actions: Option<string>)
  {
    /** Every element is present. Their values may be empty: app.js does not check them. */
    predicate Complete() {
      alertType.Some? && region.Some? && severity.Some? && impact.Some? && actions.Some?
    }
  }

  /**
   * The record `createAlert` builds (app.js:748-758) from the form values, the clock and
   * one random draw. The actions text is split on newlines.
   */
  function BuildAlert(form: AlertForm, now: nat, draw: real): (a: Alert)
    requires form.Complete() && Simulation.IsDraw(draw)
    ensures a.id == NewAlertId(now) && a.issuedAt == now && a.status == "Active"
    ensures a.alertType == form.alertType.value && a.region == form.region.value
    ensures a.severity == form.severity.value && a.expectedImpact == form.impact.value
    ensures 1000 <= a.estimatedAffected <= 50999
    ensures |a.recommendedActions| == Occurrences(form.actions.value, '\n') + 1
    ensures forall i :: 0 <= i < |a.recommendedActions| ==> '\n' !in a.recommendedActions[i]
    ensures Join(a.recommendedActions, '\n') == form.actions.value
  {
    JoinSplit(form.actions.value, '\n');
    Alert(NewAlertId(now), form.alertType.value, form.region.value, form.severity.value, now,
          form.impact.value, Split(form.actions.value, '\n'), EstimatedAffected(draw), "Active")
  }

  // ---------------------------------------------------------------- filtering and lookups

  /** `alert => alert.severity === sev`. */
  function WithSeverity(sev: string): Alert -> bool {
    (a: Alert) => a.severity == sev
  }

  /**
   * The alerts `filterAlerts` lists (app.js:774-777): all of them when the severity
   * filter is empty, otherwise those of that severity.
   */
  function FilterAlerts(alerts: seq<Alert>, filter: string): (r: seq<Alert>)
    ensures filter == "" ==> r == alerts
    ensures filter != "" ==> forall i :: 0 <= i < |r| ==> r[i].severity == filter
    ensures filter != "" ==> forall a: Alert :: a.severity == filter ==> multiset(r)[a] == multiset(alerts)[a]
    ensures multiset(r) <= multiset(alerts)
  {
    if filter == "" then alerts else Filter(alerts, WithSeverity(filter))
  }

  /** The filtered list keeps the alerts in the order they have in the full list. */
  lemma FilterAlertsKeepsOrder(alerts: seq<Alert>, filter: string)
    ensures Subsequence(FilterAlerts(alerts, filter), alerts)
  {
    if filter == "" {
      SubsequenceRefl(alerts);
    } else {
      FilterIsSubsequence(alerts, WithSeverity(filter));
    }
  }

  lemma {:induction false} SubsequenceRefl<T>(s: seq<T>)
    ensures Subsequence(s, s)
  {
    if s != [] {
      SubsequenceRefl(s[..|s| - 1]);
    }
  }

  /** `coastalRegions.find(r => r.id === id)` (app.js:675): the first region with that id. */
  function FindRegion(regions: seq<Region>, id: string): (r: Option<Region>)
    ensures r.None? <==> forall k :: 0 <= k < |regions| ==> regions[k].id != id
    ensures r.Some? ==> r.value.id == id
    ensures r.Some? ==> exists k :: 0 <= k < |regions| && regions[k] == r.value &&
                                    forall j :: 0 <= j < k ==> regions[j].id != id
  {
    Find(regions, (x: Region) => x.id == id)
  }

  /** `alerts.find(a => a.id === id)` (app.js:794): the first alert with that id. */
  function FindAlert(alerts: seq<Alert>, id: string): (r: Option<Alert>)
    ensures r.None? <==> forall k :: 0 <= k < |alerts| ==> alerts[k].id != id
    ensures r.Some? ==> r.value.id == id
    ensures r.Some? ==> exists k :: 0 <= k < |alerts| && alerts[k] == r.value &&
                                    forall j :: 0 <= j < k ==> alerts[j].id != id
  {
    Find(alerts, (x: Alert) => x.id == id)
  }

  /** A freshly created alert is what a lookup by its id finds, whatever older alerts share that id. */
  lemma FindCreatedAlert(alerts: seq<Alert>, a: Alert)
    ensures FindAlert([a] + alerts, a.id) == Some(a)
  {
    assert ([a] + alerts)[0] == a;
  }

  // ---------------------------------------------------------------- dashboard counts

  predicate IsActive(a: Alert) {
    a.status == "Active"
  }

  /** `alerts.filter(alert => alert.status === 'Active')`: every active alert, as often as listed. */
  function ActiveAlerts(alerts: seq<Alert>): (r: seq<Alert>)
    ensures forall i :: 0 <= i < |r| ==> r[i].status == "Active"
    ensures forall a: Alert :: a.status == "Active" ==> multiset(r)[a] == multiset(alerts)[a]
    ensures |r| == |Matching(alerts, IsActive)|
  {
    FilterCount(alerts, IsActive);
    Filter(alerts, IsActive)
  }

  /** The threat counters of the dashboard tab. */
  datatype ThreatCounts = ThreatCounts(active: nat, high: nat, medium: nat, low: nat)

  /**
   * The counters `updateDashboard` shows (app.js:359-362): the active alerts, and among
   * them those of severity HIGH, MEDIUM and LOW.
   */
  function DashboardCounts(alerts: seq<Alert>): (c: ThreatCounts)
    ensures c.active == |Matching(alerts, IsActive)|
    ensures c.high == |Matching(ActiveAlerts(alerts), WithSeverity("HIGH"))|
    ensures c.medium == |Matching(ActiveAlerts(alerts), WithSeverity("MEDIUM"))|
    ensures c.low == |Matching(ActiveAlerts(alerts), WithSeverity("LOW"))|
    ensures c.active <= |alerts|
    ensures c.high + c.medium + c.low <= c.active
  {
    var active := ActiveAlerts(alerts);
    FilterCount(active, WithSeverity("HIGH"));
    FilterCount(active, WithSeverity("MEDIUM"));
    FilterCount(active, WithSeverity("LOW"));
    SeverityCountsBounded(active);
    ThreatCounts(|active|,
                 |Filter(active, WithSeverity("HIGH"))|,
                 |Filter(active, WithSeverity("MEDIUM"))|,
                 |Filter(active, WithSeverity("LOW"))|)
  }

  /** An alert has one severity, so the three severity counts never exceed the list length. */
  lemma {:induction false} SeverityCountsBounded(s: seq<Alert>)
    ensures |Filter(s, WithSeverity("HIGH"))| + |Filter(s, WithSeverity("MEDIUM"))|
          + |Filter(s, WithSeverity("LOW"))| <= |s|
  {
    if s != [] {
      SeverityCountsBounded(s[..|s| - 1]);
    }
  }

  /**
   * Creating an active alert raises the active count by one, and the count of its
   * severity by one while the other two stay.
   */
  lemma CreatedAlertIsCounted(alerts: seq<Alert>, a: Alert)
    requires IsActive(a)
    ensures var before, after := DashboardCounts(alerts), DashboardCounts([a] + alerts);
      && after.active == before.active + 1
      && after.high == before.high + (if a.severity == "HIGH" then 1 else 0)
      && after.medium == before.medium + (if a.severity == "MEDIUM" then 1 else 0)
      && after.low == before.low + (if a.severity == "LOW" then 1 else 0)
  {
    var active := ActiveAlerts(alerts);
    ActiveOfCreated(alerts, a);
    SeverityCountGrows(active, a, "HIGH");
    SeverityCountGrows(active, a, "MEDIUM");
    SeverityCountGrows(active, a, "LOW");
    assert DashboardCounts(alerts) == ThreatCounts(|active|,
      |Filter(active, WithSeverity("HIGH"))|, |Filter(active, WithSeverity("MEDIUM"))|,
      |Filter(active, WithSeverity("LOW"))|);
    assert DashboardCounts([a] + alerts) == ThreatCounts(|[a] + active|,
      |Filter([a] + active, WithSeverity("HIGH"))|, |Filter([a] + active, WithSeverity("MEDIUM"))|,
      |Filter([a] + active, WithSeverity("LOW"))|);
  }

  lemma ActiveOfCreated(alerts: seq<Alert>, a: Alert)
    requires IsActive(a)
    ensures ActiveAlerts([a] + alerts) == [a] + ActiveAlerts(alerts)
  {
    FilterConcat([a], alerts, IsActive);
    assert Filter([a], IsActive) == [a] by {
      assert [a][..0] == [];
    }
  }

  lemma SeverityCountGrows(active: seq<Alert>, a: Alert, sev: string)
    ensures |Filter([a] + active, WithSeverity(sev))|
         == |Filter(active, WithSeverity(sev))| + (if a.severity == sev then 1 else 0)
  {
    assert [a][..0] == [];
    FilterConcat([a], active, WithSeverity(sev));
  }

  /** `reduce((sum, region) => sum + region.population_at_risk, 0)`: no region outweighs the sum. */
  function TotalPopulation(regions: seq<Region>): (total: nat)
    ensures forall i :: 0 <= i < |regions| ==> regions[i].populationAtRisk <= total
    ensures regions == [] ==> total == 0
  {
    if regions == [] then 0
    else TotalPopulation(regions[..|regions| - 1]) + regions[|regions| - 1].populationAtRisk
  }

  predicate IsCalm(r: Region) {
    r.threatLevel == "low"
  }

  predicate IsElevated(r: Region) {
    r.threatLevel != "low"
  }

  /**
   * The population at risk on the dashboard (app.js:389-391): the people of every region
   * whose threat level is not low. Together with the calm regions it makes up the total.
   */
  function PopulationAtRisk(regions: seq<Region>): (n: nat)
    ensures n + TotalPopulation(Filter(regions, IsCalm)) == TotalPopulation(regions)
    ensures n <= TotalPopulation(regions)
  {
    PopulationSplits(regions);
    TotalPopulation(Filter(regions, IsElevated))
  }

  /** Every region is either calm or elevated, so the two sums add up to the total. */
  lemma {:induction false} PopulationSplits(regions: seq<Region>)
    ensures TotalPopulation(Filter(regions, IsElevated)) + TotalPopulation(Filter(regions, IsCalm))
         == TotalPopulation(regions)
  {
    if regions != [] {
      var n := |regions| - 1;
      var prefix, last := regions[..n], regions[n];
      PopulationSplits(prefix);
      assert TotalPopulation(regions) == TotalPopulation(prefix) + last.populationAtRisk;
      if IsCalm(last) {
        assert Filter(regions, IsElevated) == Filter(prefix, IsElevated);
        assert Filter(regions, IsCalm) == Filter(prefix, IsCalm) + [last];
        SumSnoc(Filter(prefix, IsCalm), last);
      } else {
        assert Filter(regions, IsElevated) == Filter(prefix, IsElevated) + [last];
        assert Filter(regions, IsCalm) == Filter(prefix, IsCalm);
        SumSnoc(Filter(prefix, IsElevated), last);
      }
    }
  }

  lemma SumSnoc(regions: seq<Region>, r: Region)
    ensures TotalPopulation(regions + [r]) == TotalPopulation(regions) + r.populationAtRisk
  {
    assert (regions + [r])[..|regions|] == regions;
  }

  /** The key metrics of the analytics tab. */
  datatype KeyMetrics = KeyMetrics(totalAlerts: nat, activeAlerts: nat, populationMonitored: nat)

  /**
   * The figures `updateAnalytics` shows (app.js:541-543); its active count agrees with
   * the dashboard's, and the population monitored, the sum over every region, bounds
   * the population at risk.
   */
  function AnalyticsMetrics(alerts: seq<Alert>, regions: seq<Region>): (m: KeyMetrics)
    ensures m.totalAlerts == |alerts|
    ensures m.activeAlerts == DashboardCounts(alerts).active <= m.totalAlerts
    ensures m.populationMonitored == TotalPopulation(regions)
    ensures PopulationAtRisk(regions) <= m.populationMonitored
  {
    KeyMetrics(|alerts|, |ActiveAlerts(alerts)|, TotalPopulation(regions))
  }
}

=== FILE: dashboard.dfy ===
/**
 * The state-bearing part of `CoastalAlertSystem`: the in-memory data, the refresh
 * period and timer handle, and the operations that change them. The browser's timers
 * and storage are objects of their own; rendering is not modelled.
 */
module Dashboard {
  import opened Wrappers
  import opened JsValues
  import opened Domain
  import opened Simulation
  import opened AlertList
  import opened Preferences
  import opened Timers

  /** Every `Math.random()` value one tick consumes, in the order app.js takes them. */
  datatype TickDraws = TickDraws(
    sensors: seq<Jitter>,
    weather: seq<Jitter>,
    gate: real,
    pick: real,
    level: real)

  predicate ValidDraws(d: TickDraws) {
    && (forall i :: 0 <= i < |d.sensors| ==> ValidJitter(d.sensors[i]))
    && (forall i :: 0 <= i < |d.weather| ==> ValidJitter(d.weather[i]))
    && IsDraw(d.gate) && IsDraw(d.pick) && IsDraw(d.level)
  }

  class CoastalAlertSystem {
    var regions: seq<Region>
    var sensors: seq<Sensor>
    var weather: seq<Weather>
    var alerts: seq<Alert>
    /** `this.refreshInterval`: the refresh period in milliseconds. */
    var refreshInterval: JsNumber
    /** `this.dataUpdateTimer`: the handle of the refresh timer, or null. */
    var dataUpdateTimer: Option<nat>

    const timers: IntervalTimers
    const storage: LocalStorage
    const json: JsonCodec

    /** The timer table is consistent and the refresh timer is the only one running. */
    ghost predicate Valid()
      reads this, timers
    {
      timers.Valid() && SingleTimer()
    }

    /** The simulated readings are in their ranges and every threat level is known. */
    ghost predicate EnvironmentInRange()
      reads this
    {
      AllSensorsInRange(sensors) && AllWeatherInRange(weather) && AllThreatLevelsKnown(regions)
    }

    /** The refresh timer is the only running timer (none when there is no handle). */
    ghost predicate SingleTimer()
      reads this, timers
    {
      timers.live.Keys == if dataUpdateTimer.Some? then {dataUpdateTimer.value} else {}
    }

    /**
     * `new CoastalAlertSystem()` followed by `init()`: the seed data, the refresh period
     * from the stored preferences, and one refresh timer started with it.
     */
    constructor (now: nat, timers: IntervalTimers, storage: LocalStorage, json: JsonCodec)
      requires timers.Valid() && timers.live == map[]
      modifies timers
      ensures Valid() && EnvironmentInRange()
      ensures regions == SeedRegions(now) && sensors == SeedSensors(now)
      ensures weather == SeedWeather() && alerts == SeedAlerts(now)
      ensures refreshInterval == IntervalMs(GetUserPreferences(storage.GetItem(StorageKey), json.parse))
      ensures dataUpdateTimer.Some? && timers.live == map[dataUpdateTimer.value := refreshInterval]
      ensures this.timers == timers && this.storage == storage && this.json == json
    {
      this.timers := timers;
      this.storage := storage;
      this.json := json;
      regions := SeedRegions(now);
      sensors := SeedSensors(now);
      weather := SeedWeather();
      alerts := SeedAlerts(now);
      refreshInterval := Finite(10000);
      dataUpdateTimer := None;
      new;
      assert EnvironmentInRange();
      LoadUserPreferences();
      StartDataUpdates();
    }

    // ------------------------------------------------------------ preferences

    /**
     * `getUserPreferences()` against this page's storage (app.js:1073-1078): every default
     * key is present, the defaults alone come back when storage is refused or holds
     * nothing under `coastalAlertPreferences`, and otherwise the stored text is parsed
     * and merged over the defaults.
     */
    function StoredPreferences(): (p: Record)
      reads storage
      ensures Defaults.Keys <= p.Keys
      ensures !storage.enabled || StorageKey !in storage.items ==> p == Defaults
      ensures storage.enabled && StorageKey in storage.items ==>
        p == GetUserPreferences(Item(storage.items[StorageKey]), json.parse)
    {
      GetUserPreferences(storage.GetItem(StorageKey), json.parse)
    }

    /** `saveUserPreferences` (app.js:1081-1087): a failed write is only logged. */
    method SaveUserPreferences(p: Record)
      modifies storage
      ensures storage.items == if storage.enabled then old(storage.items)[StorageKey := Serialized(p, json)]
                               else old(storage.items)
    {
      var _ := storage.SetItem(StorageKey, Serialized(p, json));
    }

    /** `loadUserPreferences` (app.js:1046-1060), without applying the theme to the page. */
    method LoadUserPreferences()
      modifies this`refreshInterval
      ensures refreshInterval == IntervalMs(StoredPreferences())
    {
      refreshInterval := IntervalMs(StoredPreferences());
    }

    /** `toggleTheme` (app.js:915-930): flips the page theme and saves it in the record. */
    method ToggleTheme(current: Option<string>) returns (newTheme: string)
      modifies storage
      ensures newTheme == ToggledTheme(current)
      ensures storage.items == if storage.enabled
        then old(storage.items)[StorageKey := Serialized(WithTheme(old(StoredPreferences()), newTheme), json)]
        else old(storage.items)
    {
      newTheme := ToggledTheme(current);
      var preferences := StoredPreferences();
      SaveUserPreferences(WithTheme(preferences, newTheme));
    }

    /**
     * The headers `fetchWithApiKey` sends (app.js:1147-1153); the request itself is not
     * modelled. A truthy stored API key is sent as `Authorization`; without one the given
     * headers go out unchanged, as they do when storage is refused or empty.
     */
    function FetchHeaders(given: Option<Record>): (h: Record)
      reads storage
      ensures var p := StoredPreferences();
        "apiKey" in p && Truthy(p["apiKey"]) ==> "Authorization" in h && h["Authorization"] == p["apiKey"]
      ensures var p := StoredPreferences();
        !("apiKey" in p && Truthy(p["apiKey"])) ==> h == given.GetOr(map[])
      ensures !storage.enabled || StorageKey !in storage.items ==> h == given.GetOr(map[])
      ensures forall k :: k in given.GetOr(map[]) && k != "Authorization" ==> k in h && h[k] == given.GetOr(map[])[k]
    {
      DefaultsSendNoKey(given);
      RequestHeaders(StoredPreferences(), given)
    }

    // ------------------------------------------------------------ refresh timer

    /** `startDataUpdates` (app.js:951-960): starts a timer; an earlier one keeps running. */
    method StartDataUpdates()
      requires timers.Valid()
      modifies this`dataUpdateTimer, timers
      ensures timers.Valid()
      ensures dataUpdateTimer.Some? && dataUpdateTimer.value !in old(timers.live)
      ensures timers.live == old(timers.live)[dataUpdateTimer.value := refreshInterval]
    {
      var handle := timers.SetInterval(refreshInterval);
      dataUpdateTimer := Some(handle);
    }

    /**
     * `restartDataUpdates` (app.js:962-967): stops the current timer, if any, and starts a
     * new one with the current period, so a single running timer stays single.
     */
    method RestartDataUpdates()
      requires Valid()
      modifies this`dataUpdateTimer, timers
      ensures Valid()
      ensures dataUpdateTimer.Some?
      ensures timers.live == map[dataUpdateTimer.value := refreshInterval]
    {
      if dataUpdateTimer.Some? {
        timers.ClearInterval(dataUpdateTimer.value);
      }
      StartDataUpdates();
    }

    /** `handleRefreshIntervalChange` (app.js:946-949): the new period is the chosen seconds times 1000. */
    method HandleRefreshIntervalChange(value: string)
      requires Valid()
      modifies this`refreshInterval, this`dataUpdateTimer, timers
      ensures Valid()
      ensures refreshInterval == ParseInt(value).Times(1000)
      ensures dataUpdateTimer.Some?
      ensures timers.live == map[dataUpdateTimer.value := refreshInterval]
    {
      var seconds := ParseInt(value);
      refreshInterval := seconds.Times(1000);
      RestartDataUpdates();
    }

    /** `saveSettings` (app.js:864-894): saves the form's record and restarts at its period. */
    method SaveSettings(form: SettingsForm)
      requires Valid()
      modifies storage, this`refreshInterval, this`dataUpdateTimer, timers
      ensures Valid()
      ensures storage.items == if storage.enabled
        then old(storage.items)[StorageKey := Serialized(SettingsRecord(form), json)]
        else old(storage.items)
      ensures refreshInterval == FormSeconds(form).Times(1000)
      ensures dataUpdateTimer.Some?
      ensures timers.live == map[dataUpdateTimer.value := refreshInterval]
    {
      var preferences := SettingsRecord(form);
      SaveUserPreferences(preferences);
      refreshInterval := FormSeconds(form).Times(1000);
      RestartDataUpdates();
    }

    /** `resetSettings` (app.js:896-914): saves the defaults and restarts at 10 seconds. */
    method ResetSettings()
      requires Valid()
      modifies storage, this`refreshInterval, this`dataUpdateTimer, timers
      ensures Valid()
      ensures storage.items == if storage.enabled
        then old(storage.items)[StorageKey := Serialized(Defaults, json)]
        else old(storage.items)
      ensures refreshInterval == Finite(10000)
      ensures dataUpdateTimer.Some?
      ensures timers.live == map[dataUpdateTimer.value := Finite(10000)]
    {
      SaveUserPreferences(Defaults);
      refreshInterval := Finite(10000);
      RestartDataUpdates();
    }

    // ------------------------------------------------------------ data updates

    /**
     * `simulateDataUpdates` (app.js:969-1006): every station and weather record drifts and
     * is clamped; with a gate draw below 5% one region gets a new threat level. `ok` is
     * false when that happens with no regions: app.js throws after the drift.
     */
    method SimulateDataUpdates(draws: TickDraws, now: nat) returns (ok: bool)
      requires |draws.sensors| == |sensors| && |draws.weather| == |weather|
      requires ValidDraws(draws)
      modifies this`sensors, this`weather, this`regions
      ensures |sensors| == |old(sensors)| && |weather| == |old(weather)|
      ensures forall i :: 0 <= i < |sensors| ==> sensors[i] == StepSensor(old(sensors)[i], draws.sensors[i], now)
      ensures forall i :: 0 <= i < |weather| ==> weather[i] == StepWeather(old(weather)[i], draws.weather[i])
      ensures var stepped := StepRegions(old(regions), draws.gate, draws.pick, draws.level, now);
        ok == stepped.Some? && regions == stepped.GetOr(old(regions))
      ensures AllSensorsInRange(sensors) && AllWeatherInRange(weather)
      ensures old(AllThreatLevelsKnown(regions)) ==> AllThreatLevelsKnown(regions)
    {
      var i := 0;
      while i < |sensors|
        invariant 0 <= i <= |sensors| == |old(sensors)|
        invariant forall k :: 0 <= k < i ==> sensors[k] == StepSensor(old(sensors)[k], draws.sensors[k], now)
        invariant forall k :: i <= k < |sensors| ==> sensors[k] == old(sensors)[k]
        invariant weather == old(weather) && regions == old(regions)
      {
        sensors := sensors[i := StepSensor(sensors[i], draws.sensors[i], now)];
        i := i + 1;
      }
      var j := 0;
      while j < |weather|
        invariant 0 <= j <= |weather| == |old(weather)|
        invariant forall k :: 0 <= k < j ==> weather[k] == StepWeather(old(weather)[k], draws.weather[k])
        invariant forall k :: j <= k < |weather| ==> weather[k] == old(weather)[k]
        invariant |sensors| == |old(sensors)| && regions == old(regions)
        invariant forall k :: 0 <= k < |sensors| ==> sensors[k] == StepSensor(old(sensors)[k], draws.sensors[k], now)
      {
        weather := weather[j := StepWeather(weather[j], draws.weather[j])];
        j := j + 1;
      }
      ok := true;
      if draws.gate < ThreatGate {
        if regions == [] {
          ok := false;
        } else {
          var r := PickIndex(draws.pick, |regions|);
          regions := regions[r := regions[r].(threatLevel := ThreatLevels[PickIndex(draws.level, 3)],
                                              lastUpdated := now)];
        }
      }
    }

    /**
     * `createAlert` (app.js:734-765): when every form element is present, the new alert
     * goes to the front of the list; otherwise nothing changes. Empty values are accepted.
     */
    method CreateAlert(form: AlertForm, now: nat, draw: real) returns (created: bool)
      requires IsDraw(draw)
      modifies this`alerts
      ensures created == form.Complete()
      ensures created ==> alerts == [BuildAlert(form, now, draw)] + old(alerts)
      ensures !created ==> alerts == old(alerts)
    {
      created := form.Complete();
      if created {
        alerts := [BuildAlert(form, now, draw)] + alerts;
      }
    }
  }
}

=== FILE: domain.dfy ===
/**
 * The records the dashboard keeps in memory (`mockData`): coastal regions, sensor
 * stations, weather records and alerts, the fixed ranges the simulated readings are
 * kept in, and the seed data the dashboard starts from.
 * Timestamps are milliseconds since the epoch; their ISO-string rendering is not modelled.
 */
module Domain {
  import TimeFormat

  /** A closed interval [lo, hi] of readings. */
  datatype Range = Range(lo: real, hi: real) {
    predicate Contains(v: real) {
      lo <= v <= hi
    }
  }

  const TideRange := Range(0.5, 4.0)
  const WaveRange := Range(0.2, 3.0)
  const WindRange := Range(5.0, 50.0)
  const WaterTemperatureRange := Range(20.0, 35.0)
  const AirTemperatureRange := Range(20.0, 40.0)
  const HumidityRange := Range(40.0, 95.0)
  const PressureRange := Range(995.0, 1025.0)

  /** The threat levels the simulation assigns, in the order it draws from. */
  const ThreatLevels: seq<string> := ["low", "medium", "high"]

  datatype Region = Region(
    id: string,
    name: string,
    latitude: real,
    longitude: real,
    threatLevel: string,
    currentThreats: seq<string>,
    populationAtRisk: nat,
    lastUpdated: int)

  datatype Sensor = Sensor(
    stationId: string,
    location: string,
    tideLevel: real,
    waveHeight: real,
    windSpeed: real,
    waterTemperature: real,
    salinity: real,
    phLevel: real,
    timestamp: int)

  datatype Weather = Weather(
    region: string,
    temperature: real,
    humidity: real,
    pressure: real,
    windDirection: string,
    windSpeed: real,
    visibility: real,
    conditions: string,
    forecast48h: string)

  datatype Alert = Alert(
    id: string,
    alertType: string,
    region: string,
    severity: string,
    issuedAt: int,
    expectedImpact: string,
    recommendedActions: seq<string>,
    estimatedAffected: int,
    status: string)

  /** The four drifting readings of a station lie in their ranges. */
  predicate SensorInRange(s: Sensor) {
    && TideRange.Contains(s.tideLevel)
    && WaveRange.Contains(s.waveHeight)
    && WindRange.Contains(s.windSpeed)
    && WaterTemperatureRange.Contains(s.waterTemperature)
  }

  /** The four drifting values of a weather record lie in their ranges. */
  predicate WeatherInRange(w: Weather) {
    && AirTemperatureRange.Contains(w.temperature)
    && HumidityRange.Contains(w.humidity)
    && PressureRange.Contains(w.pressure)
    && WindRange.Contains(w.windSpeed)
  }

  predicate AllSensorsInRange(sensors: seq<Sensor>) {
    forall i :: 0 <= i < |sensors| ==> SensorInRange(sensors[i])
  }

  predicate AllWeatherInRange(weather: seq<Weather>) {
    forall i :: 0 <= i < |weather| ==> WeatherInRange(weather[i])
  }

  predicate AllThreatLevelsKnown(regions: seq<Region>) {
    forall i :: 0 <= i < |regions| ==> regions[i].threatLevel in ThreatLevels
  }

  // ---------------------------------------------------------------- seed data

  /** The three regions the dashboard starts with, stamped with the start time. */
  function SeedRegions(now: int): (regions: seq<Region>)
    ensures |regions| == 3 && AllThreatLevelsKnown(regions)
  {
    [ Region("region_001", "Mumbai Coast", 19.0760, 72.8777, "medium",
             ["storm_surge", "high_tide"], 50000, now),
      Region("region_002", "Chennai Marina", 13.0827, 80.2707, "low", [], 25000, now),
      Region("region_003", "Goa Beaches", 15.2993, 74.1240, "high",
             ["coastal_erosion", "pollution"], 75000, now) ]
  }

  /** The three sensor stations the dashboard starts with. */
  function SeedSensors(now: int): (sensors: seq<Sensor>)
    ensures |sensors| == 3 && AllSensorsInRange(sensors)
  {
    [ Sensor("STN_001", "Mumbai Coast", 2.3, 1.8, 25.0, 28.5, 35.2, 8.1, now),
      Sensor("STN_002", "Chennai Marina", 1.9, 1.2, 18.0, 29.1, 34.8, 8.0, now),
      Sensor("STN_003", "Goa Beaches", 2.7, 2.2, 32.0, 27.8, 35.5, 7.9, now) ]
  }

  /** The three weather records the dashboard starts with. */
  function SeedWeather(): (weather: seq<Weather>)
    ensures |weather| == 3 && AllWeatherInRange(weather)
  {
    [ Weather("Mumbai Coast", 32.0, 78.0, 1012.0, "SW", 25.0, 8.0, "Partly Cloudy",
              "Thunderstorms expected"),
      Weather("Chennai Marina", 34.0, 72.0, 1015.0, "SE", 18.0, 10.0, "Clear", "Stable conditions"),
      Weather("Goa Beaches", 30.0, 85.0, 1008.0, "W", 32.0, 6.0, "Overcast", "Heavy rain expected") ]
  }

  /** The three alerts the dashboard starts with, issued 45, 75 and 120 minutes ago. */
  function SeedAlerts(now: int): (alerts: seq<Alert>)
    ensures |alerts| == 3
    ensures forall i, j :: 0 <= i < j < |alerts| ==> alerts[i].id != alerts[j].id
  {
    [ Alert("ALERT_001", "Storm Surge Warning", "Mumbai Coast", "HIGH", now - 45 * TimeFormat.MinuteMs,
            "Coastal flooding possible in low-lying areas",
            ["Evacuate vulnerable areas", "Activate emergency shelters"], 50000, "Active"),
      Alert("ALERT_002", "Coastal Erosion Alert", "Goa Beaches", "MEDIUM", now - 75 * TimeFormat.MinuteMs,
            "Beach infrastructure at risk",
            ["Monitor beach access", "Deploy protective barriers"], 15000, "Active"),
      Alert("ALERT_003", "Water Quality Alert", "Chennai Marina", "LOW", now - 2 * TimeFormat.HourMs,
            "Minor water quality concerns",
            ["Continue monitoring", "Inform local authorities"], 5000, "Resolved") ]
  }
}

=== FILE: jsvalues.dfy ===
/**
 * The slice of JavaScript value semantics the dashboard relies on: numbers that may be
 * NaN, JSON-shaped values, truthiness, number-to-string and string-to-number conversion,
 * and `String.prototype.split` on a single character.
 */
module JsValues {

  /** A JavaScript number as the dashboard produces it: an integer, or NaN. */
  datatype JsNumber = Finite(value: int) | NaN {

    /** `this * k`; NaN absorbs the multiplication. */
    function Times(k: int): (r: JsNumber)
      ensures r.NaN? <==> NaN?
      ensures Finite? ==> r.value == value * k
    {
      match this
      case Finite(v) => Finite(v * k)
      case NaN => NaN
    }
  }

  /** A value that `JSON.parse` can return (numbers are integers in this model). */
  datatype Json =
    | JNull
    | JBool(b: bool)
    | JNum(n: int)
    | JStr(s: string)
    | JArr(items: seq<Json>)
    | JObj(fields: map<string, Json>)

  /** JavaScript truthiness of a JSON value; `undefined` (a missing key) is falsy too. */
  predicate Truthy(v: Json) {
    match v
    case JNull => false
    case JBool(b) => b
    case JNum(n) => n != 0
    case JStr(s) => s != ""
    case JArr(_) => true
    case JObj(_) => true
  }

  // ---------------------------------------------------------------- decimal digits

  predicate IsDigit(c: char) {
    '0' <= c <= '9'
  }

  predicate AllDigits(s: string) {
    forall i :: 0 <= i < |s| ==> IsDigit(s[i])
  }

  function DigitChar(d: nat): (c: char)
    requires d < 10
    ensures IsDigit(c) && DigitValue(c) == d
  {
    ('0' as int + d) as char
  }

  function DigitValue(c: char): (d: nat)
    requires IsDigit(c)
    ensures d < 10
  {
    c as int - '0' as int
  }

  /** `String(n)` for a non-negative integer: its decimal digits, without leading zeros. */
  function NatToDecimal(n: nat): (s: string)
    ensures |s| >= 1 && AllDigits(s)
    ensures |s| > 1 ==> s[0] != '0'
  {
    if n < 10 then [DigitChar(n)] else NatToDecimal(n / 10) + [DigitChar(n % 10)]
  }

  /** The number a string of decimal digits denotes. */
  function DigitsValue(s: string): nat
    requires AllDigits(s)
  {
    if s == [] then 0 else DigitsValue(s[..|s| - 1]) * 10 + DigitValue(s[|s| - 1])
  }

  /** Reading back the decimal rendering of a number gives the number. */
  lemma {:induction false} DecimalRoundTrip(n: nat)
    ensures DigitsValue(NatToDecimal(n)) == n
  {
    if n >= 10 {
      DecimalRoundTrip(n / 10);
      var s := NatToDecimal(n);
      assert s[..|s| - 1] == NatToDecimal(n / 10);
    }
  }

  /** Different numbers render to different strings. */
  lemma DecimalInjective(a: nat, b: nat)
    ensures NatToDecimal(a) == NatToDecimal(b) ==> a == b
  {
    DecimalRoundTrip(a);
    DecimalRoundTrip(b);
  }

  // ---------------------------------------------------------------- string to number

  /**
   * The white space JavaScript's `trim`, `Number` and `parseInt` skip: tab, vertical tab,
   * form feed, the byte-order mark, the line terminators (LF, CR, U+2028, U+2029) and
   * every space separator of Unicode category Zs.
   */
  predicate IsSpace(c: char) {
    c == '\t' || c == '\U{000B}' || c == '\U{000C}' || c == '\U{FEFF}' ||
    c == '\n' || c == '\r' || c == '\U{2028}' || c == '\U{2029}' ||
    c == ' ' || c == '\U{00A0}' || c == '\U{1680}' || ('\U{2000}' <= c <= '\U{200A}') ||
    c == '\U{202F}' || c == '\U{205F}' || c == '\U{3000}'
  }

  function TrimStart(s: string): (t: string)
    ensures |t| <= |s| && t == s[|s| - |t|..]
    ensures t == [] || !IsSpace(t[0])
  {
    if s != [] && IsSpace(s[0]) then TrimStart(s[1..]) else s
  }

  function TrimEnd(s: string): (t: string)
    ensures |t| <= |s| && t == s[..|t|]
    ensures t == [] || !IsSpace(t[|t| - 1])
  {
    if s != [] && IsSpace(s[|s| - 1]) then TrimEnd(s[..|s| - 1]) else s
  }

  /** The longest prefix of `s` made of decimal digits. */
  function DigitPrefix(s: string): (d: string)
    ensures AllDigits(d) && |d| <= |s| && d == s[..|d|]
    ensures |d| < |s| ==> !IsDigit(s[|d|])
  {
    if s != [] && IsDigit(s[0]) then [s[0]] + DigitPrefix(s[1..]) else []
  }

  /** `s` without a leading '+' or '-' sign. */
  function Unsigned(s: string): string {
    if s != [] && (s[0] == '-' || s[0] == '+') then s[1..] else s
  }

  predicate IsNegative(s: string) {
    s != [] && s[0] == '-'
  }

  function Signed(negative: bool, magnitude: nat): int {
    if negative then -(magnitude as int) else magnitude
  }

  /**
   * `parseInt(s)` with no radix: skip leading white space, read an optional sign and
   * the longest run of decimal digits after it; NaN when there are no such digits.
   */
  function ParseInt(s: string): JsNumber {
    var t := TrimStart(s);
    var digits := DigitPrefix(Unsigned(t));
    if digits == [] then NaN else Finite(Signed(IsNegative(t), DigitsValue(digits)))
  }

  /**
   * `parseInt` is NaN exactly when no digit follows the leading white space and sign,
   * and only a leading minus sign makes it negative.
   */
  lemma ParseIntResult(s: string)
    ensures var u := Unsigned(TrimStart(s));
      ParseInt(s).NaN? <==> u == [] || !IsDigit(u[0])
    ensures ParseInt(s).Finite? && ParseInt(s).value < 0 ==> IsNegative(TrimStart(s))
  {
  }

  /**
   * `parseInt` reads back the decimal digits of every non-negative integer, whatever
   * non-digit text follows them (`parseInt("42m ago")` is 42).
   */
  lemma ParseIntOfDecimal(n: nat, rest: string)
    requires rest == [] || !IsDigit(rest[0])
    ensures ParseInt(NatToDecimal(n) + rest) == Finite(n)
  {
    var d := NatToDecimal(n);
    var s := d + rest;
    assert s[0] == d[0] && IsDigit(d[0]);
    assert !IsSpace(s[0]) && s[0] != '-' && s[0] != '+';
    assert TrimStart(s) == s;
    assert Unsigned(s) == s && !IsNegative(s);
    DigitPrefixOfDigits(d, rest);
    assert DigitPrefix(Unsigned(TrimStart(s))) == d;
    DecimalRoundTrip(n);
    assert ParseInt(s) == Finite(Signed(false, DigitsValue(d)));
  }

  /** The digit run at the front of `d + rest` is `d` when `rest` does not go on with a digit. */
  lemma {:induction false} DigitPrefixOfDigits(d: string, rest: string)
    requires AllDigits(d)
    requires rest == [] || !IsDigit(rest[0])
    ensures DigitPrefix(d + rest) == d
  {
    if d != [] {
      assert (d + rest)[1..] == d[1..] + rest;
      DigitPrefixOfDigits(d[1..], rest);
    }
  }

  /** A string of digits has no white space to trim and no sign. */
  lemma DigitsUntrimmed(s: string)
    ensures AllDigits(s) && s != [] ==> TrimEnd(TrimStart(s)) == s && Unsigned(s) == s && !IsNegative(s)
  {
    if AllDigits(s) && s != [] {
      assert !IsSpace(s[0]);
      assert TrimStart(s) == s;
      assert !IsSpace(s[|s| - 1]);
    }
  }

  /**
   * `Number(s)`, the conversion `*` applies to a string: after trimming white space on
   * both sides, the empty string is 0, an optionally signed run of digits is its value,
   * anything else is NaN.
   */
  function StringToNumber(s: string): (r: JsNumber)
    ensures TrimEnd(TrimStart(s)) == [] ==> r == Finite(0)
    ensures AllDigits(s) && s != [] ==> r == Finite(DigitsValue(s))
  {
    DigitsUntrimmed(s);
    var t := TrimEnd(TrimStart(s));
    if t == [] then Finite(0)
    else
      var digits := Unsigned(t);
      if digits != [] && AllDigits(digits) then Finite(Signed(IsNegative(t), DigitsValue(digits)))
      else NaN
  }

  /**
   * Which trimmed texts `Number` reads as a number: a non-blank text gives a number exactly
   * when it is an optionally signed run of digits, and then its signed value; only a
   * leading minus makes it negative.
   */
  lemma StringToNumberShape(s: string)
    ensures var t := TrimEnd(TrimStart(s));
      StringToNumber(s).Finite? && t != [] ==> Unsigned(t) != [] && AllDigits(Unsigned(t))
    ensures var t := TrimEnd(TrimStart(s));
      t != [] && Unsigned(t) != [] && AllDigits(Unsigned(t)) ==>
        StringToNumber(s) == Finite(Signed(IsNegative(t), DigitsValue(Unsigned(t))))
    ensures StringToNumber(s).Finite? && StringToNumber(s).value < 0 ==> IsNegative(TrimEnd(TrimStart(s)))
  {
  }

  /**
   * `Number("-" + d)` is minus the value of the digits `d`: the converse clause of
   * `StringToNumberShape`, once trimming is seen to leave the text alone.
   */
  lemma NegativeDigits(d: string)
    requires AllDigits(d) && d != []
    ensures StringToNumber("-" + d) == Finite(-(DigitsValue(d) as int))
  {
    var s := "-" + d;
    assert s[0] == '-' && !IsSpace(s[0]) && TrimStart(s) == s;
    assert s[|s| - 1] == d[|d| - 1] && !IsSpace(s[|s| - 1]) && TrimEnd(s) == s;
    assert Unsigned(s) == d;
    StringToNumberShape(s);
  }

  /** The number a JSON value becomes when JavaScript multiplies it (`ToNumber`). */
  function ToNumber(v: Json): (r: JsNumber)
    ensures v.JNum? ==> r == Finite(v.n)
    ensures v == JNull || v == JBool(false) || v == JStr("") ==> r == Finite(0)
    ensures v == JBool(true) ==> r == Finite(1)
    ensures v.JObj? ==> r.NaN?
  {
    match v
    case JNull => Finite(0)
    case JBool(b) => Finite(if b then 1 else 0)
    case JNum(n) => Finite(n)
    case JStr(s) => StringToNumber(s)
    case JArr(_) => NaN
    case JObj(_) => NaN
  }

  // ---------------------------------------------------------------- split and join

  /** How many times `c` occurs in `s`. */
  function Occurrences(s: string, c: char): nat {
    if s == [] then 0 else (if s[0] == c then 1 else 0) + Occurrences(s[1..], c)
  }

  /** `s.split(sep)` for a one-character separator: the pieces between separators. */
  function Split(s: string, sep: char): (parts: seq<string>)
    ensures |parts| == Occurrences(s, sep) + 1
    ensures forall i :: 0 <= i < |parts| ==> sep !in parts[i]
  {
    if s == [] then [[]]
    else
      var rest := Split(s[1..], sep);
      if s[0] == sep then [[]] + rest else [[s[0]] + rest[0]] + rest[1..]
  }

  /** `parts.join(sep)`. */
  function Join(parts: seq<string>, sep: char): string
    requires |parts| >= 1
  {
    if |parts| == 1 then parts[0] else parts[0] + [sep] + Join(parts[1..], sep)
  }

  /** Joining the pieces of a split with the same separator restores the string. */
  lemma {:induction false} JoinSplit(s: string, sep: char)
    ensures Join(Split(s, sep), sep) == s
  {
    if s != [] {
      JoinSplit(s[1..], sep);
      var rest := Split(s[1..], sep);
      if s[0] != sep {
        if |rest| == 1 {
          assert Join(Split(s, sep), sep) == [s[0]] + rest[0];
        } else {
          assert Split(s, sep)[1..] == rest[1..];
          assert Join(rest, sep) == rest[0] + [sep] + Join(rest[1..], sep);
        }
      }
    }
  }

  /** Splitting a join of separator-free pieces gives back the pieces. */
  lemma {:induction false} SplitJoin(parts: seq<string>, sep: char)
    requires |parts| >= 1
    requires forall i :: 0 <= i < |parts| ==> sep !in parts[i]
    ensures Split(Join(parts, sep), sep) == parts
    decreases |parts|, |parts[0]|
  {
    var p := parts[0];
    if p == [] {
      if |parts| > 1 {
        SplitJoin(parts[1..], sep);
        assert Join(parts, sep) == [sep] + Join(parts[1..], sep);
        assert ([sep] + Join(parts[1..], sep))[1..] == Join(parts[1..], sep);
        assert parts == [[]] + parts[1..];
      }
    } else {
      var shorter := [p[1..]] + parts[1..];
      assert sep !in p[1..] by {
        assert forall k :: 0 <= k < |p[1..]| ==> p[1..][k] == p[k + 1];
      }
      SplitJoin(shorter, sep);
      var j := Join(parts, sep);
      assert j == [p[0]] + Join(shorter, sep) by {
        if |parts| > 1 {
          assert shorter[1..] == parts[1..];
        }
      }
      assert j[0] == p[0] && j[1..] == Join(shorter, sep);
      assert p[0] != sep;
      assert p == [p[0]] + p[1..] && shorter[1..] == parts[1..];
      assert parts == [[p[0]] + p[1..]] + shorter[1..];
    }
  }
}

=== FILE: preferences.dfy ===
/**
 * The stored preference record (`getUserPreferences`, `saveUserPreferences`) and the
 * rules that read it: the refresh interval, the theme toggle, the settings form and
 * the `Authorization` header. A record is a JavaScript object: a map from property
 * name to JSON value. `JSON.parse` and `JSON.stringify` are left abstract.
 */
module Preferences {
  import opened Wrappers
  import opened JsValues

  const StorageKey := "coastalAlertPreferences"
  const DefaultEndpoint := "https://api.coastalguard.com/v1"

  type Record = map<string, Json>

  /** The default record of app.js:1063-1071 (the same one `resetSettings` saves). */
  const Defaults: Record := map[
    "notifications" := JObj(map["email" := JBool(true), "sms" := JBool(true), "push" := JBool(true)]),
    "minSeverity" := JStr("MEDIUM"),
    "theme" := JStr("auto"),
    "refreshInterval" := JNum(10),
    "apiEndpoint" := JStr(DefaultEndpoint),
    "backupFrequency" := JStr("daily"),
    "apiKey" := JStr("")]

  /** What `localStorage.getItem` gave: it threw, it returned null, or it returned a string. */
  datatype StorageRead = Threw | Missing | Item(text: string)

  /** `JSON.parse` (None when it throws) and `JSON.stringify`. */
  datatype JsonCodec = JsonCodec(parse: string -> Option<Json>, stringify: Json -> string)

  /** The decimal names "0", "1", ... of the first `n` indices. */
  ghost function IndexNames(n: nat): set<string> {
    set i | 0 <= i < n :: NatToDecimal(i)
  }

  /** Properties keyed by the decimal indices "0", "1", ... as arrays and strings expose them. */
  function IndexKeyed(items: seq<Json>): (m: Record)
    ensures m.Keys == IndexNames(|items|)
  {
    if items == [] then map[]
    else
      var n := |items| - 1;
      IndexNamesGrow(n);
      var m := IndexKeyed(items[..n]);
      m[NatToDecimal(n) := items[n]]
  }

  /** Property "i" of an array or string spread is its element at index i. */
  lemma {:induction false} IndexKeyedAt(items: seq<Json>, i: nat)
    requires i < |items|
    ensures NatToDecimal(i) in IndexKeyed(items) && IndexKeyed(items)[NatToDecimal(i)] == items[i]
  {
    var n := |items| - 1;
    IndexNamesGrow(n);
    if i < n {
      IndexKeyedAt(items[..n], i);
      DecimalInjective(i, n);
    }
  }

  lemma IndexNamesGrow(n: nat)
    ensures NatToDecimal(n) !in IndexNames(n)
    ensures IndexNames(n + 1) == IndexNames(n) + {NatToDecimal(n)}
  {
    forall i | 0 <= i < n ensures NatToDecimal(i) != NatToDecimal(n) {
      DecimalInjective(i, n);
    }
  }

  /** The own enumerable properties that the spread `...v` copies out of a parsed value. */
  function SpreadOf(v: Json): (m: Record)
    ensures v.JObj? ==> m == v.fields
    ensures v.JNull? || v.JBool? || v.JNum? ==> m == map[]
    ensures v.JArr? ==> m.Keys == IndexNames(|v.items|) && m == IndexKeyed(v.items)
    ensures v.JStr? ==> m.Keys == IndexNames(|v.s|)
    ensures v.JStr? ==> m == IndexKeyed(seq(|v.s|, i requires 0 <= i < |v.s| => JStr([v.s[i]])))
  {
    match v
    case JObj(fields) => fields
    case JArr(items) => IndexKeyed(items)
    case JStr(s) => IndexKeyed(seq(|s|, i requires 0 <= i < |s| => JStr([s[i]])))
    case _ => map[]
  }

  /**
   * `getUserPreferences` (app.js:1062-1079): a shallow merge of the stored record over the
   * defaults; the defaults alone when storage throws, holds nothing or an empty string,
   * or the text does not parse.
   */
  function GetUserPreferences(read: StorageRead, parse: string -> Option<Json>): (p: Record)
    ensures Defaults.Keys <= p.Keys
    ensures read.Threw? || read.Missing? || read == Item("") ==> p == Defaults
    ensures read.Item? && parse(read.text).None? ==> p == Defaults
    ensures read.Item? && read.text != "" && parse(read.text).Some? ==>
      var stored := SpreadOf(parse(read.text).value);
      && p.Keys == Defaults.Keys + stored.Keys
      && (forall k :: k in stored ==> p[k] == stored[k])
      && (forall k :: k in Defaults && k !in stored ==> p[k] == Defaults[k])
  {
    match read
    case Item(text) =>
      if text == "" then Defaults
      else
        (match parse(text)
         case Some(v) => Defaults + SpreadOf(v)
         case None => Defaults)
    case _ => Defaults
  }

  /**
   * The merge is shallow: a stored `notifications` object replaces the default one
   * whole, so a stored `{"notifications": {"email": false}}` leaves no `sms` setting.
   */
  lemma ShallowMergeReplacesNotifications(text: string, parse: string -> Option<Json>)
    requires text != ""
    requires parse(text) == Some(JObj(map["notifications" := JObj(map["email" := JBool(false)])]))
    ensures var p := GetUserPreferences(Item(text), parse);
      && p["notifications"] == JObj(map["email" := JBool(false)])
      && "sms" !in p["notifications"].fields
      && p["theme"] == JStr("auto")
  {
  }

  /** The text `saveUserPreferences` writes (app.js:1083). */
  function Serialized(p: Record, codec: JsonCodec): string {
    codec.stringify(JObj(p))
  }

  /**
   * Saving a record and reading it back returns every saved top-level field, and the
   * record itself when it carries all the default keys. The JSON codec is assumed to
   * read back what it wrote for this record; the JSON text of an object is never empty.
   */
  lemma SaveThenLoad(p: Record, codec: JsonCodec)
    requires codec.parse(Serialized(p, codec)) == Some(JObj(p))
    requires Serialized(p, codec) != ""
    ensures var loaded := GetUserPreferences(Item(Serialized(p, codec)), codec.parse);
      && (forall k :: k in p ==> k in loaded && loaded[k] == p[k])
      && (Defaults.Keys <= p.Keys ==> loaded == p)
  {
    var loaded := GetUserPreferences(Item(Serialized(p, codec)), codec.parse);
    if Defaults.Keys <= p.Keys {
      assert loaded.Keys == p.Keys;
    }
  }

  // ---------------------------------------------------------------- reading the record

  /**
   * `preferences.refreshInterval * 1000` (app.js:1059): the timer period in milliseconds.
   * A stored number of seconds gives a thousand times as many milliseconds, a stored
   * `null` gives 0, and a missing or object value gives NaN.
   */
  function IntervalMs(p: Record): (ms: JsNumber)
    ensures "refreshInterval" !in p ==> ms.NaN?
    ensures "refreshInterval" in p && p["refreshInterval"].JNum? ==>
      ms == Finite(p["refreshInterval"].n * 1000)
    ensures "refreshInterval" in p && p["refreshInterval"] == JNull ==> ms == Finite(0)
    ensures "refreshInterval" in p && p["refreshInterval"].JObj? ==> ms.NaN?
  {
    if "refreshInterval" in p then ToNumber(p["refreshInterval"]).Times(1000) else NaN
  }

  /** The default record gives the constructor's 10-second period. */
  lemma DefaultInterval()
    ensures IntervalMs(Defaults) == Finite(10000)
  {
  }

  /** `toggleTheme` (app.js:915-930): dark unless the page is dark now, then light. */
  function ToggledTheme(current: Option<string>): (t: string)
    ensures t == "light" <==> current == Some("dark")
    ensures t == "light" || t == "dark"
  {
    if current == Some("dark") then "light" else "dark"
  }

  /** The record `toggleTheme` saves: the one it read, with the new theme. */
  function WithTheme(p: Record, theme: string): (q: Record)
    ensures q.Keys == p.Keys + {"theme"} && q["theme"] == JStr(theme)
    ensures forall k :: k in p && k != "theme" ==> q[k] == p[k]
  {
    p["theme" := JStr(theme)]
  }

  /** The values of the settings form (app.js:864-887); None when the element is missing. */
  datatype SettingsForm = SettingsForm(
    email: Option<bool>,
    sms: Option<bool>,
    push: Option<bool>,
    minSeverity: Option<string>,
    theme: Option<string>,
    refreshInterval: Option<string>,
    apiEndpoint: Option<string>,
    backupFrequency: Option<string>,
    apiKey: Option<string>)

  const EmptyForm := SettingsForm(None, None, None, None, None, None, None, None, None)

  /**
   * `refreshInterval ? parseInt(refreshInterval.value) : 10`, in seconds: the parsed
   * element, or the default interval when the element is missing.
   */
  function FormSeconds(form: SettingsForm): (seconds: JsNumber)
    ensures form.refreshInterval.None? ==> seconds == ToNumber(Defaults["refreshInterval"])
    ensures form.refreshInterval.Some? ==> seconds == ParseInt(form.refreshInterval.value)
  {
    match form.refreshInterval
    case Some(text) => ParseInt(text)
    case None => Finite(10)
  }

  /** The JSON that stands for a number: NaN is written as `null`. */
  function NumberJson(n: JsNumber): Json {
    match n
    case Finite(v) => JNum(v)
    case NaN => JNull
  }

  /**
   * Key `k` of the saved record holds the element's text when the element is present,
   * and the default value of `k` when it is missing.
   */
  predicate StringField(p: Record, k: string, element: Option<string>)
    requires k in Defaults
  {
    && k in p
    && (element.Some? ==> p[k] == JStr(element.value))
    && (element.None? ==> p[k] == Defaults[k])
  }

  /** The `notifications` object `saveSettings` builds: each checkbox, `true` when it is missing. */
  function NotificationSettings(form: SettingsForm): (m: Record)
    ensures m.Keys == {"email", "sms", "push"}
  {
    map["email" := JBool(form.email.GetOr(true)),
        "sms" := JBool(form.sms.GetOr(true)),
        "push" := JBool(form.push.GetOr(true))]
  }

  /**
   * The record `saveSettings` builds (app.js:875-887) as `JSON.stringify` sees it: each
   * missing element falls back to its default value.
   */
  function SettingsRecord(form: SettingsForm): (p: Record)
    ensures p.Keys == Defaults.Keys
    ensures form == EmptyForm ==> p == Defaults
    ensures form.apiKey.Some? ==> p["apiKey"] == JStr(form.apiKey.value)
    ensures form.theme.Some? ==> p["theme"] == JStr(form.theme.value)
  {
    map[
      "notifications" := JObj(NotificationSettings(form)),
      "minSeverity" := JStr(form.minSeverity.GetOr("MEDIUM")),
      "theme" := JStr(form.theme.GetOr("auto")),
      "refreshInterval" := NumberJson(FormSeconds(form)),
      "apiEndpoint" := JStr(form.apiEndpoint.GetOr(DefaultEndpoint)),
      "backupFrequency" := JStr(form.backupFrequency.GetOr("daily")),
      "apiKey" := JStr(form.apiKey.GetOr(""))]
  }

  /** The severity selector is saved as its value, or as the default `minSeverity` when it is missing. */
  lemma SettingsRecordMinSeverity(form: SettingsForm)
    ensures StringField(SettingsRecord(form), "minSeverity", form.minSeverity)
  {
  }

  /** The theme selector is saved as its value, or as the default `theme` when it is missing. */
  lemma SettingsRecordTheme(form: SettingsForm)
    ensures StringField(SettingsRecord(form), "theme", form.theme)
  {
  }

  /** The API endpoint field is saved as its value, or as the default `apiEndpoint` when it is missing. */
  lemma SettingsRecordApiEndpoint(form: SettingsForm)
    ensures StringField(SettingsRecord(form), "apiEndpoint", form.apiEndpoint)
  {
  }

  /** The backup frequency selector is saved as its value, or as the default `backupFrequency` when it is missing. */
  lemma SettingsRecordBackupFrequency(form: SettingsForm)
    ensures StringField(SettingsRecord(form), "backupFrequency", form.backupFrequency)
  {
  }

  /** The API key field is saved as its value, or as the default `apiKey` when it is missing. */
  lemma SettingsRecordApiKey(form: SettingsForm)
    ensures StringField(SettingsRecord(form), "apiKey", form.apiKey)
  {
  }

  /** The saved `notifications` value is an object with exactly the three checkbox keys. */
  lemma SettingsRecordNotificationKeys(form: SettingsForm)
    ensures var n := SettingsRecord(form)["notifications"];
      n.JObj? && n.fields.Keys == {"email", "sms", "push"}
  {
    assert SettingsRecord(form)["notifications"] == JObj(NotificationSettings(form));
  }

  /** The e-mail checkbox is saved as checked, or as `true` when it is missing. */
  lemma SettingsRecordEmail(form: SettingsForm)
    ensures var n := SettingsRecord(form)["notifications"];
      n.JObj? && "email" in n.fields && n.fields["email"] == JBool(form.email.GetOr(true))
  {
    assert SettingsRecord(form)["notifications"] == JObj(NotificationSettings(form));
  }

  /** The SMS checkbox is saved as checked, or as `true` when it is missing. */
  lemma SettingsRecordSms(form: SettingsForm)
    ensures var n := SettingsRecord(form)["notifications"];
      n.JObj? && "sms" in n.fields && n.fields["sms"] == JBool(form.sms.GetOr(true))
  {
    assert SettingsRecord(form)["notifications"] == JObj(NotificationSettings(form));
  }

  /** The push checkbox is saved as checked, or as `true` when it is missing. */
  lemma SettingsRecordPush(form: SettingsForm)
    ensures var n := SettingsRecord(form)["notifications"];
      n.JObj? && "push" in n.fields && n.fields["push"] == JBool(form.push.GetOr(true))
  {
    assert SettingsRecord(form)["notifications"] == JObj(NotificationSettings(form));
  }

  /** With no checkbox on the page the saved notifications are the default ones. */
  lemma SettingsRecordNotificationsDefault(form: SettingsForm)
    requires form.email.None? && form.sms.None? && form.push.None?
    ensures SettingsRecord(form)["notifications"] == Defaults["notifications"]
  {
    var boxes := map["email" := JBool(true), "sms" := JBool(true), "push" := JBool(true)];
    assert NotificationSettings(form) == boxes;
    assert Defaults["notifications"] == JObj(boxes);
    assert SettingsRecord(form)["notifications"] == JObj(NotificationSettings(form));
  }

  /**
   * The interval element is saved as the number of seconds it parses to, `null` when it
   * does not parse (`JSON.stringify(NaN)`), and the default 10 when it is missing.
   */
  lemma SettingsRecordInterval(form: SettingsForm)
    ensures var v := SettingsRecord(form)["refreshInterval"];
      && (form.refreshInterval.None? ==> v == Defaults["refreshInterval"])
      && (FormSeconds(form).Finite? ==> v == JNum(FormSeconds(form).value))
      && (FormSeconds(form).NaN? ==> v == JNull)
  {
  }

  /**
   * The period `saveSettings` sets at once (app.js:890) is the one the next start reads
   * back from storage (app.js:1059) whenever the form's interval parses as a number.
   * When it does not, the period set at once is NaN, while the saved `null` reads back
   * as 0 milliseconds.
   */
  lemma SavedIntervalReloads(form: SettingsForm, codec: JsonCodec)
    requires codec.parse(Serialized(SettingsRecord(form), codec)) == Some(JObj(SettingsRecord(form)))
    requires Serialized(SettingsRecord(form), codec) != ""
    ensures var reloaded := IntervalMs(GetUserPreferences(Item(Serialized(SettingsRecord(form), codec)), codec.parse));
      && (FormSeconds(form).Finite? ==> reloaded == FormSeconds(form).Times(1000))
      && (FormSeconds(form).NaN? ==> FormSeconds(form).Times(1000) == NaN && reloaded == Finite(0))
  {
    SaveThenLoad(SettingsRecord(form), codec);
    SettingsRecordInterval(form);
  }

  // ---------------------------------------------------------------- the API key header

  /**
   * The headers `fetchWithApiKey` sends (app.js:1148-1153): the given ones (or none), plus
   * `Authorization` set to the stored API key when that key is truthy.
   */
  function RequestHeaders(p: Record, given: Option<Record>): (h: Record)
    ensures var base := given.GetOr(map[]);
      && ("apiKey" in p && Truthy(p["apiKey"]) ==> "Authorization" in h && h["Authorization"] == p["apiKey"])
      && (!("apiKey" in p && Truthy(p["apiKey"])) ==> h == base)
      && h.Keys - {"Authorization"} == base.Keys - {"Authorization"}
      && forall k :: k in base && k != "Authorization" ==> k in h && h[k] == base[k]
  {
    var base := given.GetOr(map[]);
    if "apiKey" in p && Truthy(p["apiKey"]) then base["Authorization" := p["apiKey"]] else base
  }

  /** With the default (empty) API key no header is added. */
  lemma DefaultsSendNoKey(given: Option<Record>)
    ensures RequestHeaders(Defaults, given) == given.GetOr(map[])
  {
  }

  /** A non-empty key saved through the settings form is the `Authorization` header sent later. */
  lemma SavedKeyIsSent(form: SettingsForm, codec: JsonCodec, given: Option<Record>)
    requires form.apiKey.Some? && form.apiKey.value != ""
    requires codec.parse(Serialized(SettingsRecord(form), codec)) == Some(JObj(SettingsRecord(form)))
    requires Serialized(SettingsRecord(form), codec) != ""
    ensures var h := RequestHeaders(GetUserPreferences(Item(Serialized(SettingsRecord(form), codec)), codec.parse), given);
      "Authorization" in h && h["Authorization"] == JStr(form.apiKey.value)
  {
    SaveThenLoad(SettingsRecord(form), codec);
  }

  // ---------------------------------------------------------------- the storage itself

  /**
   * The browser's `localStorage`. When `enabled` is false the browser refuses access
   * and every call throws.
   */
  class LocalStorage {
    var items: map<string, string>
    const enabled: bool

    constructor (items: map<string, string>, enabled: bool)
      ensures this.items == items && this.enabled == enabled
    {
      this.items := items;
      this.enabled := enabled;
    }

    /** `localStorage.getItem(key)`. */
    function GetItem(key: string): (r: StorageRead)
      reads this
      ensures r.Threw? <==> !enabled
      ensures r.Item? <==> enabled && key in items
      ensures r.Item? ==> r.text == items[key]
    {
      if !enabled then Threw else if key in items then Item(items[key]) else Missing
    }

    /** `localStorage.setItem(key, value)`; `ok` is false when it threw. */
    method SetItem(key: string, value: string) returns (ok: bool)
      modifies this
      ensures ok == enabled
      ensures items == if enabled then old(items)[key := value] else old(items)
    {
      ok := enabled;
      if enabled {
        items := items[key := value];
      }
    }
  }
}

=== FILE: seqs.dfy ===
/**
 * The two array primitives the dashboard builds its queries from:
 * `Array.prototype.filter` and `Array.prototype.find`.
 */
module Seqs {
  import opened Wrappers

  /** `s.filter(p)`: the elements of `s` that satisfy `p`, in their original order. */
  function Filter<T(!new)>(s: seq<T>, p: T -> bool): (r: seq<T>)
    ensures |r| <= |s|
    ensures forall i :: 0 <= i < |r| ==> p(r[i])
    ensures forall x {:trigger multiset(r)[x]} :: multiset(r)[x] == if p(x) then multiset(s)[x] else 0
  {
    if s == [] then []
    else
      var n := |s| - 1;
      assert s == s[..n] + [s[n]];
      Filter(s[..n], p) + (if p(s[n]) then [s[n]] else [])
  }

  /** `a` can be obtained from `b` by deleting elements, keeping the order of the rest. */
  ghost predicate Subsequence<T>(a: seq<T>, b: seq<T>)
    decreases |b|
  {
    a == [] || (b != [] && (Subsequence(a, b[..|b| - 1]) ||
                            (a[|a| - 1] == b[|b| - 1] && Subsequence(a[..|a| - 1], b[..|b| - 1]))))
  }

  /** The positions of `s` whose element satisfies `p`: an independent way of counting matches. */
  ghost function Matching<T>(s: seq<T>, p: T -> bool): set<nat> {
    set i: nat | i < |s| && p(s[i])
  }

  /** Filtering keeps the relative order of the elements it keeps. */
  lemma {:induction false} FilterIsSubsequence<T(!new)>(s: seq<T>, p: T -> bool)
    ensures Subsequence(Filter(s, p), s)
  {
    if s != [] {
      var n := |s| - 1;
      FilterIsSubsequence(s[..n], p);
      var f := Filter(s[..n], p);
      if p(s[n]) {
        assert Filter(s, p) == f + [s[n]];
        assert (f + [s[n]])[..|f|] == f;
      } else {
        assert Filter(s, p) == f;
      }
    }
  }

  /** Filtering a concatenation filters each part: the kept elements are not reordered. */
  lemma {:induction false} FilterConcat<T(!new)>(a: seq<T>, b: seq<T>, p: T -> bool)
    ensures Filter(a + b, p) == Filter(a, p) + Filter(b, p)
    decreases |b|
  {
    if b == [] {
      assert a + b == a;
    } else {
      var front, x := b[..|b| - 1], b[|b| - 1];
      FilterConcat(a, front, p);
      FilterConcatSnoc(a, front, x, p);
      assert b == front + [x];
    }
  }

  /** The step of `FilterConcat`: appending one element to the second part keeps the split. */
  lemma FilterConcatSnoc<T(!new)>(a: seq<T>, front: seq<T>, x: T, p: T -> bool)
    requires Filter(a + front, p) == Filter(a, p) + Filter(front, p)
    ensures Filter(a + (front + [x]), p) == Filter(a, p) + Filter(front + [x], p)
  {
    var fa, ff, last := Filter(a, p), Filter(front, p), if p(x) then [x] else [];
    assert a + (front + [x]) == (a + front) + [x];
    FilterSnoc(a + front, x, p);
    FilterSnoc(front, x, p);
    assert (fa + ff) + last == fa + (ff + last);
  }

  /** Appending one element to the input appends it to the output exactly when it matches. */
  lemma FilterSnoc<T(!new)>(s: seq<T>, x: T, p: T -> bool)
    ensures Filter(s + [x], p) == Filter(s, p) + if p(x) then [x] else []
  {
    var t := s + [x];
    assert t[..|t| - 1] == s && t[|t| - 1] == x;
  }

  /** The length of `s.filter(p)` is the number of positions of `s` that satisfy `p`. */
  lemma {:induction false} FilterCount<T(!new)>(s: seq<T>, p: T -> bool)
    ensures |Filter(s, p)| == |Matching(s, p)|
  {
    if s == [] {
      assert Matching(s, p) == {};
    } else {
      var n := |s| - 1;
      FilterCount(s[..n], p);
      MatchingSnoc(s, p);
    }
  }

  /** Extending the sequence by its last element adds at most that position to the matches. */
  lemma MatchingSnoc<T>(s: seq<T>, p: T -> bool)
    requires s != []
    ensures |Matching(s, p)| == |Matching(s[..|s| - 1], p)| + if p(s[|s| - 1]) then 1 else 0
  {
    var n := |s| - 1;
    var before := Matching(s[..n], p);
    var after := Matching(s, p);
    assert n !in before;
    var last := if p(s[n]) then {n} else {};
    forall i: nat
      ensures i in after <==> i in before + last
    {
      if i < n {
        assert s[..n][i] == s[i];
      }
    }
    assert after == before + last;
  }

  /** The index of the first element of `s` that satisfies `p` (`s.findIndex(p)`, -1 as None). */
  function FindIndex<T>(s: seq<T>, p: T -> bool): (r: Option<nat>)
    ensures r.Some? ==> r.value < |s| && p(s[r.value])
    ensures r.Some? ==> forall j :: 0 <= j < r.value ==> !p(s[j])
    ensures r.None? <==> forall j :: 0 <= j < |s| ==> !p(s[j])
  {
    if s == [] then None
    else if p(s[0]) then Some(0)
    else
      match FindIndex(s[1..], p)
      case None => None
      case Some(i) => Some(i + 1)
  }

  /** `s.find(p)`: the first element that satisfies `p`, or nothing (`undefined`). */
  function Find<T>(s: seq<T>, p: T -> bool): (r: Option<T>)
    ensures r.None? <==> forall j :: 0 <= j < |s| ==> !p(s[j])
    ensures r.Some? ==> exists i :: 0 <= i < |s| && s[i] == r.value && p(s[i]) &&
                                    forall j :: 0 <= j < i ==> !p(s[j])
  {
    match FindIndex(s, p)
    case None => None
    case Some(i) => Some(s[i])
  }
}

=== FILE: simulation.dfy ===
/**
 * One tick of the synthetic environment (`simulateDataUpdates`), as functions of the
 * previous record and the random draws. Every draw is a value of `Math.random()`, so it
 * lies in [0, 1); the draws are passed in, in the order app.js takes them.
 */
module Simulation {
  import opened Wrappers
  import opened Domain

  predicate IsDraw(x: real) {
    0.0 <= x < 1.0
  }

  /** The four draws one station or weather record consumes, in the order app.js takes them. */
  datatype Jitter = Jitter(first: real, second: real, third: real, fourth: real)

  predicate ValidJitter(j: Jitter) {
    IsDraw(j.first) && IsDraw(j.second) && IsDraw(j.third) && IsDraw(j.fourth)
  }

  function Abs(x: real): real {
    if x < 0.0 then -x else x
  }

  function Min(a: real, b: real): real {
    if a <= b then a else b
  }

  function Max(a: real, b: real): real {
    if a >= b then a else b
  }

  /** `Math.max(lo, Math.min(hi, v))`: the point of the range nearest to `v`. */
  function Clamp(v: real, r: Range): (c: real)
    requires r.lo <= r.hi
    ensures r.Contains(c)
    ensures r.Contains(v) ==> c == v
    ensures v < r.lo ==> c == r.lo
    ensures v > r.hi ==> c == r.hi
  {
    Max(r.lo, Min(r.hi, v))
  }

  /** `v + (Math.random() - 0.5) * magnitude`: a move of at most half the magnitude either way. */
  function Drift(v: real, draw: real, magnitude: real): (r: real)
    ensures IsDraw(draw) && magnitude >= 0.0 ==> Abs(r - v) <= magnitude / 2.0
  {
    var d := (draw - 0.5) * magnitude;
    assert IsDraw(draw) && magnitude >= 0.0 ==> -magnitude / 2.0 <= d <= magnitude / 2.0 by {
      assert d == draw * magnitude - magnitude / 2.0;
      if IsDraw(draw) && magnitude >= 0.0 {
        assert 0.0 <= draw * magnitude <= magnitude;
      }
    }
    v + d
  }

  /**
   * Drifting a value that lies in its range and clamping it back moves it by at most
   * half the drift magnitude.
   */
  lemma DriftThenClampBound(v: real, draw: real, magnitude: real, r: Range)
    requires r.lo <= r.hi && r.Contains(v)
    requires IsDraw(draw) && magnitude >= 0.0
    ensures Abs(Clamp(Drift(v, draw, magnitude), r) - v) <= magnitude / 2.0
  {
  }

  /** One tick of a sensor station (app.js:971-981). */
  function StepSensor(s: Sensor, j: Jitter, now: int): (r: Sensor)
    ensures SensorInRange(r)
    ensures r.stationId == s.stationId && r.location == s.location
    ensures r.salinity == s.salinity && r.phLevel == s.phLevel
    ensures r.timestamp == now
  {
    s.(tideLevel := Clamp(Drift(s.tideLevel, j.first, 0.05), TideRange),
       waveHeight := Clamp(Drift(s.waveHeight, j.second, 0.05), WaveRange),
       windSpeed := Clamp(Drift(s.windSpeed, j.third, 1.0), WindRange),
       waterTemperature := Clamp(Drift(s.waterTemperature, j.fourth, 0.1), WaterTemperatureRange),
       timestamp := now)
  }

  /** A station whose readings are in range moves by at most half of each step magnitude. */
  lemma StepSensorMovesLittle(s: Sensor, j: Jitter, now: int)
    requires SensorInRange(s) && ValidJitter(j)
    ensures var r := StepSensor(s, j, now);
      && Abs(r.tideLevel - s.tideLevel) <= 0.025
      && Abs(r.waveHeight - s.waveHeight) <= 0.025
      && Abs(r.windSpeed - s.windSpeed) <= 0.5
      && Abs(r.waterTemperature - s.waterTemperature) <= 0.05
  {
    DriftThenClampBound(s.tideLevel, j.first, 0.05, TideRange);
    DriftThenClampBound(s.waveHeight, j.second, 0.05, WaveRange);
    DriftThenClampBound(s.windSpeed, j.third, 1.0, WindRange);
    DriftThenClampBound(s.waterTemperature, j.fourth, 0.1, WaterTemperatureRange);
  }

  /** One tick of a weather record (app.js:985-997); weather records carry no timestamp. */
  function StepWeather(w: Weather, j: Jitter): (r: Weather)
    ensures WeatherInRange(r)
    ensures r.region == w.region && r.windDirection == w.windDirection
    ensures r.visibility == w.visibility && r.conditions == w.conditions
    ensures r.forecast48h == w.forecast48h
  {
    w.(temperature := Clamp(Drift(w.temperature, j.first, 0.5), AirTemperatureRange),
       humidity := Clamp(Drift(w.humidity, j.second, 1.0), HumidityRange),
       pressure := Clamp(Drift(w.pressure, j.third, 1.0), PressureRange),
       windSpeed := Clamp(Drift(w.windSpeed, j.fourth, 1.0), WindRange))
  }

  /** A weather record whose values are in range moves by at most half of each step magnitude. */
  lemma StepWeatherMovesLittle(w: Weather, j: Jitter)
    requires WeatherInRange(w) && ValidJitter(j)
    ensures var r := StepWeather(w, j);
      && Abs(r.temperature - w.temperature) <= 0.25
      && Abs(r.humidity - w.humidity) <= 0.5
      && Abs(r.pressure - w.pressure) <= 0.5
      && Abs(r.windSpeed - w.windSpeed) <= 0.5
  {
    DriftThenClampBound(w.temperature, j.first, 0.5, AirTemperatureRange);
    DriftThenClampBound(w.humidity, j.second, 1.0, HumidityRange);
    DriftThenClampBound(w.pressure, j.third, 1.0, PressureRange);
    DriftThenClampBound(w.windSpeed, j.fourth, 1.0, WindRange);
  }

  /** The chance per tick that a region's threat level is redrawn. */
  const ThreatGate := 0.05

  /** `Math.floor(draw * n)`: a uniformly drawn index below `n`. */
  function PickIndex(draw: real, n: nat): (i: nat)
    requires IsDraw(draw) && n > 0
    ensures i < n
  {
    assert 0.0 <= draw * n as real < n as real by {
      assert n as real - draw * n as real == (1.0 - draw) * n as real;
    }
    (draw * n as real).Floor
  }

  /**
   * The threat-level step (app.js:1000-1005). With `gate` below 5% the region at index
   * `floor(pick * |regions|)` gets the level at index `floor(level * 3)` and the new
   * time. None when that happens on an empty region list: app.js then reads a
   * field of `undefined` and throws.
   */
  function StepRegions(regions: seq<Region>, gate: real, pick: real, level: real, now: int)
    : (r: Option<seq<Region>>)
    requires IsDraw(gate) && IsDraw(pick) && IsDraw(level)
    ensures r.None? <==> gate < ThreatGate && regions == []
    ensures gate >= ThreatGate ==> r == Some(regions)
    ensures r.Some? ==> |r.value| == |regions|
    ensures gate < ThreatGate && regions != [] ==>
      var i := PickIndex(pick, |regions|);
      && r.value[i] == regions[i].(threatLevel := ThreatLevels[PickIndex(level, 3)], lastUpdated := now)
      && forall k :: 0 <= k < |regions| && k != i ==> r.value[k] == regions[k]
  {
    if gate >= ThreatGate then Some(regions)
    else if regions == [] then None
    else
      var i := PickIndex(pick, |regions|);
      Some(regions[i := regions[i].(threatLevel := ThreatLevels[PickIndex(level, 3)], lastUpdated := now)])
  }

  /** A threat-level step keeps every region's level among low, medium and high. */
  lemma StepRegionsKeepsLevelsKnown(regions: seq<Region>, gate: real, pick: real, level: real, now: int)
    requires IsDraw(gate) && IsDraw(pick) && IsDraw(level)
    requires AllThreatLevelsKnown(regions)
    ensures StepRegions(regions, gate, pick, level, now).Some? ==>
              AllThreatLevelsKnown(StepRegions(regions, gate, pick, level, now).value)
  {
  }

  /** A threat-level step changes at most one region, and only its level and time stamp. */
  lemma StepRegionsKeepsIdentity(regions: seq<Region>, gate: real, pick: real, level: real, now: int)
    requires IsDraw(gate) && IsDraw(pick) && IsDraw(level)
    ensures var r := StepRegions(regions, gate, pick, level, now);
      r.Some? ==> forall k :: 0 <= k < |regions| ==>
        && r.value[k].id == regions[k].id && r.value[k].name == regions[k].name
        && r.value[k].populationAtRisk == regions[k].populationAtRisk
        && r.value[k].currentThreats == regions[k].currentThreats
  {
  }
}

=== FILE: timeformat.dfy ===
/**
 * `formatTime` (app.js:1126-1141): how long ago an instant was, in the coarse buckets
 * the dashboard prints. Instants are milliseconds since the epoch.
 */
module TimeFormat {
  import opened Wrappers
  import opened JsValues

  const MinuteMs := 60000
  const HourMs := 3600000
  const DayMs := 86400000

  /** The bucket an elapsed time falls in. */
  datatype Elapsed = JustNow | MinutesAgo(minutes: nat) | HoursAgo(hours: nat) | OlderThanADay

  /** The bucket of `now - instant`, with whole minutes or hours rounded down. */
  function FormatTime(now: int, instant: int): (e: Elapsed)
    ensures e == JustNow <==> now - instant < MinuteMs
    ensures e.MinutesAgo? <==> MinuteMs <= now - instant < HourMs
    ensures e.MinutesAgo? ==>
      1 <= e.minutes <= 59 && e.minutes * MinuteMs <= now - instant < (e.minutes + 1) * MinuteMs
    ensures e.HoursAgo? <==> HourMs <= now - instant < DayMs
    ensures e.HoursAgo? ==>
      1 <= e.hours <= 23 && e.hours * HourMs <= now - instant < (e.hours + 1) * HourMs
    ensures e == OlderThanADay <==> now - instant >= DayMs
  {
    var diff := now - instant;
    if diff < MinuteMs then JustNow
    else if diff < HourMs then MinutesAgo(diff / MinuteMs)
    else if diff < DayMs then HoursAgo(diff / HourMs)
    else OlderThanADay
  }

  /**
   * The text shown for a bucket: "Just now", or the count followed by "m ago" or
   * "h ago". Older than a day app.js prints a locale-dependent date, which is not
   * modelled (None).
   */
  function Label(e: Elapsed): (s: Option<string>)
    ensures s.None? <==> e == OlderThanADay
    ensures e == JustNow ==> s == Some("Just now")
    ensures e.MinutesAgo? ==> s.Some? && |s.value| > 5 && s.value[|s.value| - 5..] == "m ago"
                              && s.value[..|s.value| - 5] == NatToDecimal(e.minutes)
                              && ParseInt(s.value) == Finite(e.minutes)
    ensures e.HoursAgo? ==> s.Some? && |s.value| > 5 && s.value[|s.value| - 5..] == "h ago"
                            && s.value[..|s.value| - 5] == NatToDecimal(e.hours)
                            && ParseInt(s.value) == Finite(e.hours)
  {
    match e
    case JustNow => Some("Just now")
    case MinutesAgo(m) => ParseIntOfDecimal(m, "m ago"); Some(NatToDecimal(m) + "m ago")
    case HoursAgo(h) => ParseIntOfDecimal(h, "h ago"); Some(NatToDecimal(h) + "h ago")
    case OlderThanADay => None
  }

  /** Buckets in order of age; within a bucket, by its count. */
  predicate NotOlder(a: Elapsed, b: Elapsed) {
    match (a, b)
    case (JustNow, _) => true
    case (MinutesAgo(m), MinutesAgo(n)) => m <= n
    case (MinutesAgo(_), HoursAgo(_)) => true
    case (HoursAgo(h), HoursAgo(k)) => h <= k
    case (_, OlderThanADay) => true
    case _ => false
  }

  /** As time passes, the label of a fixed instant only ever ages. */
  lemma FormatTimeAges(now: int, later: int, instant: int)
    requires now <= later
    ensures NotOlder(FormatTime(now, instant), FormatTime(later, instant))
  {
  }
}

=== FILE: timers.dfy ===
/** The browser's `setInterval` / `clearInterval` bookkeeping: which timers are running. */
module Timers {
  import opened JsValues

  /** The running interval timers: handle -> period in milliseconds. Handles are positive. */
  class IntervalTimers {
    var live: map<nat, JsNumber>
    var next: nat

    ghost predicate Valid()
      reads this
    {
      next >= 1 && forall h :: h in live ==> 1 <= h < next
    }

    constructor ()
      ensures Valid() && live == map[]
    {
      live := map[];
      next := 1;
    }

    /** `setInterval(callback, delay)`: a new running timer with a fresh handle. */
    method SetInterval(delay: JsNumber) returns (handle: nat)
      requires Valid()
      modifies this
      ensures Valid()
      ensures handle >= 1 && handle !in old(live)
      ensures live == old(live)[handle := delay]
    {
      handle := next;
      live := live[handle := delay];
      next := next + 1;
    }

    /** `clearInterval(handle)`: stops that timer; nothing happens when it is not running. */
    method ClearInterval(handle: nat)
      requires Valid()
      modifies this
      ensures Valid()
      ensures live == old(live) - {handle}
    {
      live := live - {handle};
    }
  }
}

=== FILE: wrappers.dfy ===
/** Optional values: a JavaScript `null`/`undefined` result, or a missing element. */
module Wrappers {

  datatype Option<+T> = None | Some(value: T) {

    /** The wrapped value, or `default` when there is none (JavaScript's `x ? x : default`). */
    function GetOr(default: T): T {
      match this
      case Some(v) => v
      case None => default
    }
  }
}
